=== FILE: README.md ===
# Customer chat: a Dafny model of its core

This project models the core of a customer-service chat. A customer fills in
a start form and opens a conversation. Connected attendants are told about it
in real time and see it in a list split into waiting, active and closed tabs.
Selecting a conversation assigns it and joins its room. Both sides send
messages by an HTTP POST to the messages route, which stores each message and
then pushes it through the socket server to the conversation's room, with a
summary to the attendants. The socket server also keeps room membership and
relays typing notices.

The model covers these parts of the system:

- **The socket relay** (`SocketRelay`): handshake rooms, the rejoin, join and
  leave rules, its own `message` handler (persist, then broadcast), typing
  relay and `getIO`.
  Room names and events live in `Wire`.
- **The chat window's message list** (`ChatInterface`): socket pushes with
  reconciliation of optimistic entries, the polling merge, the optimistic
  send with its POST outcome, and the media address rewrite.
- **The attendant panel** (`AttendantPanel`): the list handlers, the tab
  filters, and selecting or leaving a conversation.
- **The conversations route** (`ConversationsApi`): POST validation,
  creation as `waiting`, and a broadcast that may fail softly. GET ordering
  and the last-message projection.
- **The upload route** (`UploadApi`) and the **statistics route** (`StatsApi`).
- **Small validators and formatters**: `WelcomeModal`, `LeadsList`,
  `ConversationList` and `AudioRecorder`.

`Scenarios` connects the parts. It follows an uploaded file's address through
to rendering, and follows a conversation from creation to the attendant's
first reply.

Persistence, the clock and randomness are parameters: each effectful
operation takes the store's result or the failure that occurred. Instants are
integer milliseconds. Strings are `seq<char>`. JavaScript truthiness of an
optional string is `Wrappers.Truthy`: present and not empty.

## Model

| member | source | states |
|---|---|---|
| SocketRelay.HandshakeRooms | lib/socket.ts:28-37 | A client with a non-empty conversation id joins exactly that conversation's room. An attendant with a non-empty attendant id joins exactly its own room and the attendants room. Otherwise it joins nothing. |
| SocketRelay.HandshakeJoins | lib/socket.ts:28-37 | On connection, the handshake cases hold concrete memberships: a client with an id, an attendant with an id, a missing or empty id, and a role/id mismatch. |
| SocketRelay.Connect | lib/socket.ts:23-37 | A new connection holds its handshake rooms; every other connection is unchanged. |
| SocketRelay.Rejoin | lib/socket.ts:40-45 | Only a client connection gains the conversation room; for any other connection the relay is unchanged. |
| SocketRelay.Join | lib/socket.ts:95-100 | Only an attendant connection gains the conversation room; for a client it is a no-op. |
| SocketRelay.JoinIdempotent | lib/socket.ts:40-100 | Joining or rejoining the same room twice gives the same relay as doing it once. |
| SocketRelay.Leave | lib/socket.ts:103-106 | For either role, the caller loses exactly that conversation room; its other rooms and every other connection are unchanged. |
| SocketRelay.LeaveNotHeldIsNoOp | lib/socket.ts:103-106 | Leaving a room that is not held leaves the relay unchanged. |
| SocketRelay.LeaveUndoesJoin | lib/socket.ts:95-106 | An attendant that joins a room it did not hold and then leaves it is back where it started. |
| SocketRelay.Receivers | lib/socket.ts:109-119 | An emission reaches exactly the room's members other than the excluded sender. |
| SocketRelay.TypingReachesOthers | lib/socket.ts:109-119 | `typing` and `stop-typing` deliver `isTyping` true or false, once, to each other member of the conversation room, and never to the sender. |
| SocketRelay.StoredMessage | lib/socket.ts:50-59 | The created row defaults its type to `text`. A falsy file URL, file name or file size becomes null, and a truthy one is copied. Content and sender are copied, and the row has the id and instant the store chose. |
| SocketRelay.OnMessage | lib/socket.ts:48-92 | Broadcasts happen if and only if both the create and the update succeed. A message is stored if and only if the create succeeds. |
| SocketRelay.MessageFanOut | lib/socket.ts:72-88 | Each connection receives `message` if it is in the conversation room, then `conversation-updated` carrying the submitted content if it is in the attendants room, in that order. After any store failure it receives nothing. |
| SocketRelay.Dispatch | lib/socket.ts:40-123 | `typing` and `stop-typing` change no membership and emit exactly one typing notice to the conversation room, excluding the sender. Room events emit nothing and keep the set of connections. A disconnect removes exactly that connection. |
| SocketRelay.GetIO | lib/socket.ts:129-140 | Returns the global instance if there is one, else the local one, else null. |
| SocketRelay.ConnectKeepsValid | lib/socket.ts:28-37 | A handshake keeps room families apart: clients hold only conversation rooms, and unknown types hold none. |
| SocketRelay.DispatchKeepsValid | lib/socket.ts:40-123 | Every inbound event also keeps the room families apart. |
| SocketRelay.ClientsNeverHearAttendantNotices | lib/socket.ts:33-37 | In such a relay, a non-attendant is never in the attendants room, so it never hears list notices. |
| ChatInterface.FirstPending | components/ChatInterface.tsx:96-101 | Returns the index of the first entry that is a temp entry of the same sender within 5000 ms, and no earlier entry matches; or -1 when no entry matches. |
| ChatInterface.HandleNewMessage | components/ChatInterface.tsx:85-111 | A known id leaves the list unchanged. An authoritative id replaces the first matching pending entry in place. Otherwise the message is appended. |
| ChatInterface.HandleNewMessageKeepsIdsUnique | components/ChatInterface.tsx:89-110 | Unique ids stay unique, and the pushed id is listed afterwards. |
| ChatInterface.PollMerge | components/ChatInterface.tsx:161-171 | The current list is kept as a prefix. Exactly the fetched messages with unlisted ids follow. Every fetched id is listed afterwards. |
| ChatInterface.PollMergeKeepsFetchedOrder | components/ChatInterface.tsx:163-168 | The appended messages are a subsequence of the fetched list. |
| ChatInterface.PollMergeIdempotent | components/ChatInterface.tsx:161-171 | Merging the same answer again adds nothing. |
| ChatInterface.PollMergeKeepsIdsUnique | components/ChatInterface.tsx:161-171 | Merging a fetch without repeated ids keeps ids unique. |
| ChatInterface.StartSend | components/ChatInterface.tsx:224-248 | With empty text and no file URL it does nothing. Otherwise it appends one entry with id `temp-<now>` and the caller's sender and instant. The entry's content is the text, or the per-type placeholder when the text is empty. The entry carries the type and the truthy file fields. The input box is cleared and stop-typing is emitted. The POST body carries the content, the sender, the type and the file fields as given. |
| ChatInterface.RejectedSendRestoresList | components/ChatInterface.tsx:224-284 | When no entry already has the new temporary id, a send whose POST is rejected or throws leaves the list exactly as before the send. |
| ChatInterface.AcceptedSendAppendsServerCopy | components/ChatInterface.tsx:224-273 | When no entry already has the new temporary id, a send whose POST succeeds leaves the previous list followed by the server's copy. |
| ChatInterface.Placeholder | components/ChatInterface.tsx:237 | The placeholder is empty exactly for types other than image, video and audio. |
| ChatInterface.ApplyPostOutcome | components/ChatInterface.tsx:266-284 | On success, entries with the temp id are replaced in place and all others are unchanged. On rejection or an exception, they are removed and the rest keep their order. |
| ChatInterface.FinishSend | components/ChatInterface.tsx:266-284 | The list after the POST is the one `ApplyPostOutcome` gives. The send-failure alert is raised exactly when the POST is rejected or throws. While the temp entry is listed, the alert is raised exactly when the list gets shorter. |
| ChatInterface.FailedPostRemovesOnlyPending | components/ChatInterface.tsx:274-284 | With unique ids, a failed POST removes exactly the pending entry. |
| ChatInterface.EchoAfterReplaceIsDropped | components/ChatInterface.tsx:266-273 | After the POST answer replaces the pending entry, the relay's later push of the same message is dropped by the known-id check. |
| ChatInterface.LateEchoDuplicates | components/ChatInterface.tsx:95-110 | A concrete run where the same server message ends up listed twice (see Findings). |
| ChatInterface.ApplyPostOutcomeDedup | components/ChatInterface.tsx:266-273 | The corrected POST handling: it matches the original unless the server id is already listed, in which case the pending entry is only removed. |
| ChatInterface.LateEchoResolved | components/ChatInterface.tsx:266-273 | On the run above, the corrected handling lists the server message once. |
| ChatInterface.DedupKeepsIdsUnique | components/ChatInterface.tsx:266-273 | The corrected handling keeps ids unique and lists the server id afterwards. |
| ChatInterface.StripPrefix | components/ChatInterface.tsx:459 | When the prefix is present the result is what follows it; otherwise the string is unchanged. |
| ChatInterface.MediaSrc | components/ChatInterface.tsx:459 | The address is the file API prefix followed by the stored URL with at most its first ten characters removed. A URL not starting with `/` is kept whole. A leading `/uploads/` is dropped, and so is one `/` right after it. Any other URL starting with `/` loses only that `/`. |
| ChatInterface.RenderedMedia | components/ChatInterface.tsx:455-497 | Image, video and audio messages with a truthy file URL show the rewritten address; everything else shows text. |
| AttendantPanel.OnNewConversation | components/AttendantPanel.tsx:39-45 | An already listed id leaves the list unchanged; otherwise the conversation is prepended. |
| AttendantPanel.NewConversationIdempotent | components/AttendantPanel.tsx:39-45 | Announcing the same conversation twice equals announcing it once, and it is listed afterwards. |
| AttendantPanel.Merge | components/AttendantPanel.tsx:52 | Every field the payload has (name, phone, last message, its time, unread count) overwrites the entry's; absent fields keep the entry's values. The old status is kept when the payload's status is absent or empty. |
| AttendantPanel.OnConversationUpdated | components/AttendantPanel.tsx:48-56 | Only entries with the payload's id change, to the merge. Length and order are unchanged. |
| AttendantPanel.MessageSummaryKeepsStatus | components/AttendantPanel.tsx:48-56 | The relay's summary keeps every status and shows the pushed text as the last message. |
| AttendantPanel.OnStatusUpdated | components/AttendantPanel.tsx:59-65 | Matching entries take the new status and nothing else changes. |
| AttendantPanel.StatusUpdateOfUnlistedIsNoOp | components/AttendantPanel.tsx:59-65 | An unlisted id leaves the list unchanged. |
| AttendantPanel.TabsPartition | components/AttendantPanel.tsx:120-122 | The three tabs are pairwise disjoint and order-preserving subsequences. An unknown status is in none; a known status is in its tab. |
| AttendantPanel.TabCounts | components/AttendantPanel.tsx:120-260 | Each tab's badge is the number of conversations with its status, and the three badges add up to the number of conversations with a known status. |
| AttendantPanel.FirstStatus | components/AttendantPanel.tsx:94 | Returns the status of the first entry with the id, and is absent exactly when the id is unlisted. |
| AttendantPanel.Select | components/AttendantPanel.tsx:86-95 | Selecting always emits `join-conversation` for the id. It requests assignment if and only if the listed status is `waiting`. |
| AttendantPanel.ApplyAssign | components/AttendantPanel.tsx:105-116 | On success, the entry takes the returned status, or `active` if none is returned. On failure the list is unchanged. |
| AttendantPanel.AssignMovesToActive | components/AttendantPanel.tsx:105-122 | A waiting entry that is assigned moves from the waiting tab to the active tab. |
| AttendantPanel.BackToList | components/AttendantPanel.tsx:129-133 | Returning to the list emits `leave-conversation` for the selected id. |
| AttendantPanel.BackToListUndoesSelect | components/AttendantPanel.tsx:86-133 | For an attendant that did not already hold the conversation's room, selecting the conversation and going back to the list leaves the relay as it was. |
| ConversationsApi.Post | app/api/conversations/route.ts:40-86 | A missing or empty name or phone gives 400. A body that is not JSON, or a create that throws, gives 500 with "Erro ao criar conversa". Any non-200 changes nothing and emits nothing. A 200 creates a `waiting` conversation with the given name and phone. `new-conversation` goes only to `attendants`, exactly when a non-throwing broadcaster exists. |
| ConversationsApi.BroadcastIsSoft | app/api/conversations/route.ts:61-78 | The response and the store do not depend on the broadcaster. |
| ConversationsApi.SortByUpdatedDesc | app/api/conversations/route.ts:7-10 | The result is sorted by `updatedAt`, most recent first, and is a permutation of the stored records. |
| ConversationsApi.Newest | app/api/conversations/route.ts:12-17 | The newest message of the conversation, absent exactly when it has none. |
| ConversationsApi.Get | app/api/conversations/route.ts:5-38 | Gives one entry per record in `updatedAt` order, with that record's id, name, phone and status and no unread count. `lastMessage` and its time come from the newest message; both are absent when there is none. A failure gives 500. |
| ConversationsApi.ListingIsOrderedPermutation | app/api/conversations/route.ts:7-10 | The listing is sorted and has the same records and length as the store. |
| ConversationsApi.CreatedIsListedWaiting | app/api/conversations/route.ts:52-58 | A created conversation is then listed as waiting with no last message. |
| WelcomeModal.Submit | components/WelcomeModal.tsx:14-38 | Starts if and only if neither field is blank and the raw phone matches. A blank field alerts only "fill all fields". A bad phone alerts only the phone error. The start receives trimmed values. Loading is set before the start and cleared after it, even on a throw. |
| WelcomeModal.StartEffects | components/WelcomeModal.tsx:29-37 | Loading is set first and cleared last. The start is called exactly once, second. The error alert appears exactly when the start throws. |
| WelcomeModal.BlankPhoneIsNotAFormatError | components/WelcomeModal.tsx:17-27 | An all-whitespace phone matches the pattern but is reported as missing. |
| WelcomeModal.TrimmedPhoneMatches | components/WelcomeModal.tsx:24-31 | Trimming a non-blank matching phone keeps it matching. |
| Text.TrimEmptyIffAllWhitespace | components/WelcomeModal.tsx:17 | A string trims to empty if and only if it is all whitespace. |
| LeadsList.FilterLeads | components/LeadsList.tsx:63-66 | The result is an order-preserving subsequence. A lead is in it if and only if its lower-cased name contains the lower-cased filter, or its phone contains the filter. Its length is the number of leads that match. |
| LeadsList.EmptyFilterShowsAll | components/LeadsList.tsx:63-66 | An empty filter shows every lead. |
| LeadsList.NameMatchIgnoresCase | components/LeadsList.tsx:64 | A lead whose name contains a spelling that differs from the filter only in letter case is shown for that filter, its upper-case form and its lower-case form. |
| LeadsList.StatusBadge | components/LeadsList.tsx:44-54 | The six known statuses map to fixed texts; any other status shows itself. |
| LeadsList.ShortId | components/LeadsList.tsx:120 | Gives the first 8 characters, or the whole id when shorter. |
| LeadsList.Avatar | components/LeadsList.tsx:116 | The upper-cased first character, or empty for an empty name. |
| ConversationList.StatusLabel | components/ConversationList.tsx:47-55 | The four closed statuses have their labels; any other status reads `Finalizada`. |
| ConversationList.Tag | components/ConversationList.tsx:138 | In the closed tab, the tag is the upper-cased label; the other tabs show fixed tags. |
| ConversationList.FormatTime | components/ConversationList.tsx:28-45 | No time gives nothing. Under 24 h gives a clock time, under 48 h gives `Ontem`, and anything older gives a relative phrase. |
| ConversationList.BucketsAge | components/ConversationList.tsx:33-41 | As time passes, a row only moves to older buckets. |
| ConversationList.RenderRow | components/ConversationList.tsx:123-160 | A row shows the client's name and phone and the tag. It shows the last message only when it is non-empty, and no time exactly when there is none. Clicking passes the conversation's id and name. |
| ConversationList.RenderRows | components/ConversationList.tsx:123-128 | Gives one row per conversation. Clicking row i passes that conversation's id and name. |
| AudioRecorder.FormatTime | components/AudioRecorder.tsx:77-81 | The display is the whole minutes, a colon, then two digits worth the remaining seconds. |
| AudioRecorder.FormatTimeRoundTrip | components/AudioRecorder.tsx:77-81 | The display is minutes, a colon, then two seconds digits below 60, and reading it back gives the counter. |
| AudioRecorder.Start | components/AudioRecorder.tsx:28-59 | With microphone access, recording starts at 0. Without it, the recorder state is unchanged; `AudioRecorder.StartRecording` models the alert. |
| AudioRecorder.StartRecording | components/AudioRecorder.tsx:28-59 | The recorder becomes what `Start` gives. The microphone alert is raised exactly when access is refused, and then the recorder is unchanged. Otherwise recording starts at 0. |
| AudioRecorder.Tick | components/AudioRecorder.tsx:52-54 | Each tick adds one second while recording. |
| AudioRecorder.Stop | components/AudioRecorder.tsx:61-70 | Recording stops and the counter keeps its value. |
| AudioRecorder.CounterCountsTicks | components/AudioRecorder.tsx:48-54 | After a start and n ticks the counter is n, and the display reads back as n. |
| UploadApi.Extension | app/api/upload/route.ts:40 | The part after the last dot, or the whole name when there is no dot. It contains no dot. |
| UploadApi.StoredName | app/api/upload/route.ts:38-41 | The stored name starts with the clock's digits and a dash, and ends with a dot and the original's extension. |
| UploadApi.StoredNameKeepsExtension | app/api/upload/route.ts:38-41 | The stored name has the original's extension. |
| UploadApi.StoredNamesDifferByClock | app/api/upload/route.ts:38-41 | Names made at different clock readings differ, whatever the random part. |
| UploadApi.Post | app/api/upload/route.ts:6-65 | No file gives 400 and writes nothing. A missing type or a failed write gives 500. Otherwise the stored path and the public URL name the same file, and the answer echoes the original name, size and type. |
| UploadApi.UrlMatchesPath | app/api/upload/route.ts:46-50 | The public URL is the written path without its `public` segment. |
| StatsApi.Last7Days | app/api/stats/route.ts:33-51 | Gives seven windows, starting six days before today and one day apart. Each window counts the conversations created in that day. |
| StatsApi.CountInSplits | app/api/stats/route.ts:35-45 | The counts of adjacent windows add up to the count of their union. |
| StatsApi.WeekTotal | app/api/stats/route.ts:33-51 | The seven window counts add up to the count of the whole week. |
| StatsApi.TotalsOrdered | app/api/stats/route.ts:12-30 | Leads today are at most leads this month, which are at most the total. |
| StatsApi.Tally | app/api/stats/route.ts:54-64 | There is a key for exactly the statuses that occur, holding that status's number of conversations. |
| StatsApi.Statuses | app/api/stats/route.ts:54-58 | The distinct statuses that occur, each listed once. |
| StatsApi.StatusCountsSumToTotal | app/api/stats/route.ts:54-64 | The tally's keys are exactly the distinct statuses, and its values add up to the number of conversations. |
| StatsApi.TallyIsStatusTally | app/api/stats/route.ts:54-64 | The tally has a key for exactly the statuses that occur, each holding its count, and its values add up to the number of conversations. |
| StatsApi.Get | app/api/stats/route.ts:5-80 | Gives the total, the today and month counts, the tally (whose values add up to the total), and seven windows: window k starts 6 - k days before today and counts the conversations created in that day. A failure gives 500. |
| Scenarios.UploadedFileIsServed | app/api/upload/route.ts:50 | The chat rewrites an uploaded file's public URL to `/api/uploads/<type>/<name>`. |
| Scenarios.ReconcileExample | components/ChatInterface.tsx:95-107 | A pending `temp-1000` entry is replaced by the server copy that arrives 2 s later, leaving one entry. |
| Scenarios.NewConversationReachesAttendant | app/api/conversations/route.ts:52-70 | A created conversation is waiting, and its notice reaches a connected attendant but not the customer. |
| Scenarios.SelectionTakesOver | components/AttendantPanel.tsx:86-112 | Selecting a new conversation asks for assignment, makes it active, and puts the attendant in the customer's room. |
| Scenarios.ReplyReachesBoth | lib/socket.ts:72-88 | The attendant's reply reaches the customer as a message, and the attendant as the message and then the summary. The summary keeps the conversation active. |
| Scenarios.TakeOverMeetsReply | lib/socket.ts:28-37 | After the take-over, the customer is outside the attendants room and the attendant is inside it. |

## Left out

- Transport and framework: socket.io delivery, HTTP parsing, React rendering and state scheduling, and `console` output are not modelled. Each handler is a pure function of its inputs and the outcomes of its effects.
- The store (Prisma) is a parameter. Operations take success or failure and the id and instant the store would choose. Records are sequences.
- Neither client page emits the socket `message` event: every send is a POST to the messages route (`app/api/conversations/[id]/messages/route.ts`, which is not part of this model). That route stores the message and then, when `getIO()` returns an instance and inside its own `try`, makes the same two emissions as the relay's handler, for a send with non-empty text. For a media send without text the route first substitutes a placeholder (`📷 Foto`, `🎥 Vídeo`, `🎤 Áudio` or `Arquivo`) and both emissions carry it, whereas the relay's handler would carry the empty text. `SocketRelay.OnMessage` models the relay's handler, and `Scenarios.ReplyReachesBoth`, a text reply, uses it to stand for the route's fan-out.
- LeadsList.NameMatchIgnoresCase: only the name half of the search ignores case. The phone is compared as typed, as in the source, so two filters that differ only in case can show different leads through the phone.
- Each socket's own private room is left out, as are socket.io's broadcast-operator semantics beyond "room members except the sender".
- `Disconnect` removes the session. This is how socket.io behaves, not code in the handler.
- ConversationsApi.SortByUpdatedDesc: ties in `updatedAt` are ordered by insertion here. The store leaves tie order unspecified.
- ConversationsApi.Newest: ties in `createdAt` go to the first stored message. The store leaves this unspecified too.
- Date formatting (`HH:mm`, `dd/MM`, `formatDistanceToNow`, ISO strings) is left out. `ConversationList.FormatTime` returns which bucket applies, and the stats windows carry their start instant instead of the `dd/MM` label.
- Invalid dates (`NaN`) and the `catch` branch of the list's time formatting are left out, because instants are integers.
- StatsApi.Last7Days: a day is a fixed 86 400 000 ms. `subDays` keeps wall-clock time across daylight-saving changes, and this model does not.
- `startOfDay` and `startOfMonth` are parameters of `StatsApi.Get`. The month start is not derived from the day.
- Text.Lower and Text.Upper change ASCII letters only. JavaScript's `toLowerCase` and `toUpperCase` also map other letters.
- LeadsList.StatusBadge and ConversationList.StatusLabel: the lookup through a plain object also matches inherited keys such as `constructor`. This model does not include that.
- UploadApi.Post: the random text (`Math.random().toString(36)`) and the clock are parameters. Directory creation (`mkdir`) is assumed to succeed. `path.join` is modelled as a list of segments without normalisation. A `type` containing `/` or `..` is not examined.
- The media recorder, microphone, blobs and `setInterval` timing are left out. `AudioRecorder.Tick` is one timer firing.
- Three loads in the chat window replace the whole list with the server's answer: the first load, the reload on socket `connect`, and the `socket-reconnected` reload (components/ChatInterface.tsx:79, :147 and :184). A replacement drops any pending `temp-` entries. These replacements are left out. The polling fallback merges rather than replaces, and `ChatInterface.PollMerge` models it.
- The typing debounce, local storage of the conversation id, scrolling, and polling timing in the chat window are left out.
- Files outside the modelled core are not part of this model:
  - the login, leads, messages, status and assign routes;
  - the uploads file server;
  - the admin script;
  - the statistics dashboard.
  Their answers appear only as outcomes (`PostOutcome`, `AssignOutcome`).

## Findings

| source | as written | input that shows it | evidently intended | confidence | as-written member | corrected member |
|---|---|---|---|---|---|---|
| components/ChatInterface.tsx:95-110 | The socket push only replaces a pending entry whose timestamp is within 5 s. After a successful POST, entries with the temp id are replaced by the server message without checking whether that message's id is already listed. | Pending `temp-1000` at 1000 ms. The relay pushes server message `abc` stamped 7000 ms (a slow POST or a skewed client clock), and it is appended. The POST then answers `abc`. The list is `[abc, abc]`. | Each message id appears once in the list. | not executed | ChatInterface.LateEchoDuplicates | ChatInterface.ApplyPostOutcomeDedup, ChatInterface.DedupKeepsIdsUnique, ChatInterface.LateEchoResolved |

=== FILE: attendant_panel.dfy ===
/** The attendant's conversation list: the three list events of the relay, the
    tab partition, and what selecting and leaving a conversation do. */
module AttendantPanel {
  import opened Wrappers
  import opened Seqs
  import opened Wire
  import SocketRelay

  /** The statuses the tabs know. */
  const ClosedStatuses: set<string> := {"closed", "completed", "sold", "cancelled"}
  const KnownStatuses: set<string> := {"waiting", "active"} + ClosedStatuses

  predicate Listed(list: seq<Summary>, id: string)
  {
    exists i :: 0 <= i < |list| && list[i].id == id
  }

  /** `new-conversation`: a conversation not yet listed goes to the top. */
  function OnNewConversation(list: seq<Summary>, c: Summary): (r: seq<Summary>)
    ensures Listed(list, c.id) ==> r == list
    ensures !Listed(list, c.id) ==> r == [c] + list
  {
    if Listed(list, c.id) then list else [c] + list
  }

  /** Announcing the same conversation twice lists it once. */
  lemma NewConversationIdempotent(list: seq<Summary>, c: Summary)
    ensures OnNewConversation(OnNewConversation(list, c), c) == OnNewConversation(list, c)
    ensures Listed(OnNewConversation(list, c), c.id)
  {
    if !Listed(list, c.id) {
      assert OnNewConversation(list, c)[0] == c;
    }
  }

  /** The fields a `conversation-updated` payload carries; an absent field is a
      key the payload does not have. */
  datatype Patch = Patch(
    id: string,
    clientName: Option<string>,
    clientPhone: Option<string>,
    status: Option<string>,
    lastMessage: Option<string>,
    lastMessageTime: Option<int>,
    unreadCount: Option<int>)

  /** `{ ...c, ...p, status: p.status || c.status }`. */
  function Merge(c: Summary, p: Patch): (m: Summary)
    ensures m.id == p.id
    ensures m.status == (if Truthy(p.status) then p.status.value else c.status)
    ensures p.lastMessage.Some? ==> m.lastMessage == p.lastMessage
    ensures p.lastMessage.None? ==> m.lastMessage == c.lastMessage
    ensures p.lastMessageTime.Some? ==> m.lastMessageTime == p.lastMessageTime
    ensures p.lastMessageTime.None? ==> m.lastMessageTime == c.lastMessageTime
    ensures p.unreadCount.Some? ==> m.unreadCount == p.unreadCount
    ensures p.unreadCount.None? ==> m.unreadCount == c.unreadCount
    ensures m.clientName == p.clientName.GetOr(c.clientName)
    ensures m.clientPhone == p.clientPhone.GetOr(c.clientPhone)
  {
    Summary(
      p.id,
      p.clientName.GetOr(c.clientName),
      p.clientPhone.GetOr(c.clientPhone),
      if Truthy(p.status) then p.status.value else c.status,
      if p.lastMessage.Some? then p.lastMessage else c.lastMessage,
      if p.lastMessageTime.Some? then p.lastMessageTime else c.lastMessageTime,
      if p.unreadCount.Some? then p.unreadCount else c.unreadCount)
  }

  /** The payload the relay sends after a message: id and last-message fields only. */
  function PatchOf(e: ServerEvent): Patch
    requires e.ConversationUpdated?
  {
    Patch(e.id, None, None, None, Some(e.lastMessage), Some(e.lastMessageTime), None)
  }

  /** `conversation-updated`: only entries with the payload's id change. */
  function OnConversationUpdated(list: seq<Summary>, p: Patch): (r: seq<Summary>)
    ensures |r| == |list|
    ensures forall i :: 0 <= i < |list| ==> r[i].id == list[i].id
    ensures forall i :: 0 <= i < |list| && list[i].id != p.id ==> r[i] == list[i]
    ensures forall i :: 0 <= i < |list| && list[i].id == p.id ==> r[i] == Merge(list[i], p)
  {
    seq(|list|, i requires 0 <= i < |list| => if list[i].id == p.id then Merge(list[i], p) else list[i])
  }

  /** A relay message summary never moves a conversation between tabs: its
      status stays, and it shows the pushed text as the last message. */
  lemma MessageSummaryKeepsStatus(list: seq<Summary>, e: ServerEvent, i: nat)
    requires e.ConversationUpdated? && i < |list|
    ensures OnConversationUpdated(list, PatchOf(e))[i].status == list[i].status
    ensures list[i].id == e.id ==> OnConversationUpdated(list, PatchOf(e))[i].lastMessage == Some(e.lastMessage)
  {
  }

  /** `conversation-status-updated`: matching entries take the new status. */
  function OnStatusUpdated(list: seq<Summary>, id: string, status: string): (r: seq<Summary>)
    ensures |r| == |list|
    ensures forall i :: 0 <= i < |list| && list[i].id != id ==> r[i] == list[i]
    ensures forall i :: 0 <= i < |list| && list[i].id == id ==> r[i] == list[i].(status := status)
  {
    seq(|list|, i requires 0 <= i < |list| => if list[i].id == id then list[i].(status := status) else list[i])
  }

  lemma StatusUpdateOfUnlistedIsNoOp(list: seq<Summary>, id: string, status: string)
    requires !Listed(list, id)
    ensures OnStatusUpdated(list, id, status) == list
  {
    var r := OnStatusUpdated(list, id, status);
    forall i | 0 <= i < |list| ensures r[i] == list[i] {
      assert list[i].id != id;
    }
  }

  // ---------------------------------------------------------------------
  // Tabs

  function IsWaiting(c: Summary): bool { c.status == "waiting" }
  function IsActive(c: Summary): bool { c.status == "active" }
  function IsClosed(c: Summary): bool { c.status in ClosedStatuses }

  function WaitingTab(list: seq<Summary>): seq<Summary> { Filter(list, IsWaiting) }
  function ActiveTab(list: seq<Summary>): seq<Summary> { Filter(list, IsActive) }
  function ClosedTab(list: seq<Summary>): seq<Summary> { Filter(list, IsClosed) }

  /** Each tab keeps the list's order, no conversation is in two tabs, a status
      outside the six known values is in none, and a conversation with a known
      status is in its tab. */
  lemma TabsPartition(list: seq<Summary>)
    ensures IsSubsequence(WaitingTab(list), list)
    ensures IsSubsequence(ActiveTab(list), list)
    ensures IsSubsequence(ClosedTab(list), list)
    ensures forall c :: c in WaitingTab(list) ==> c !in ActiveTab(list) && c !in ClosedTab(list)
    ensures forall c :: c in ActiveTab(list) ==> c !in ClosedTab(list)
    ensures forall c :: c in list && c.status !in KnownStatuses ==>
              c !in WaitingTab(list) && c !in ActiveTab(list) && c !in ClosedTab(list)
    ensures forall c :: c in list && c.status in KnownStatuses ==>
              c in WaitingTab(list) || c in ActiveTab(list) || c in ClosedTab(list)
  {
    FilterIsSubsequence(list, IsWaiting);
    FilterIsSubsequence(list, IsActive);
    FilterIsSubsequence(list, IsClosed);
  }

  /** Each tab's badge is the number of conversations with its status, and the
      three add up to the number of conversations with a known status. */
  lemma {:induction false} TabCounts(list: seq<Summary>)
    ensures |WaitingTab(list)| == Count(list, IsWaiting)
    ensures |ActiveTab(list)| == Count(list, IsActive)
    ensures |ClosedTab(list)| == Count(list, IsClosed)
    ensures |WaitingTab(list)| + |ActiveTab(list)| + |ClosedTab(list)|
            == Count(list, (c: Summary) => c.status in KnownStatuses)
  {
    FilterLengthIsCount(list, IsWaiting);
    FilterLengthIsCount(list, IsActive);
    FilterLengthIsCount(list, IsClosed);
    TabTotal(list);
  }

  lemma {:induction false} TabTotal(list: seq<Summary>)
    ensures Count(list, IsWaiting) + Count(list, IsActive) + Count(list, IsClosed)
            == Count(list, (c: Summary) => c.status in KnownStatuses)
  {
    if |list| > 0 {
      TabTotal(list[1..]);
    }
  }

  // ---------------------------------------------------------------------
  // Selecting and leaving a conversation

  /** What selecting a conversation does: the chat opened, the emit, and
      whether the assignment request is made. */
  datatype Selection = Selection(selected: string, clientName: string, emit: ClientEvent, requestAssign: bool)

  /** `list.find(c => c.id === id)?.status === 'waiting'`. */
  function FirstStatus(list: seq<Summary>, id: string): (s: Option<string>)
    ensures s.None? <==> !Listed(list, id)
    ensures s.Some? ==> exists i :: 0 <= i < |list| && list[i].id == id && list[i].status == s.value
                                    && forall j :: 0 <= j < i ==> list[j].id != id
  {
    if |list| == 0 then None
    else if list[0].id == id then Some(list[0].status)
    else
      var s := FirstStatus(list[1..], id);
      if s.Some? then
        var i :| 0 <= i < |list[1..]| && list[1..][i].id == id && list[1..][i].status == s.value
                 && forall j :: 0 <= j < i ==> list[1..][j].id != id;
        assert list[i + 1] == list[1..][i];
        s
      else s
  }

  /** `handleSelectConversation`: always joins the room; asks for assignment
      only when the listed status is `waiting`. */
  function Select(list: seq<Summary>, id: string, clientName: string): (s: Selection)
    ensures s.emit == JoinConversation(id)
    ensures s.selected == id && s.clientName == clientName
    ensures s.requestAssign <==> FirstStatus(list, id) == Some("waiting")
  {
    Selection(id, clientName, JoinConversation(id), FirstStatus(list, id) == Some("waiting"))
  }

  /** How the assignment request ended; a successful answer may carry the
      conversation's status. */
  datatype AssignOutcome = Assigned(status: Option<string>) | AssignRejected | AssignThrew

  /** The list after the assignment request. */
  function ApplyAssign(list: seq<Summary>, id: string, o: AssignOutcome): (r: seq<Summary>)
    ensures !o.Assigned? ==> r == list
    ensures o.Assigned? ==> r == OnStatusUpdated(list, id, if Truthy(o.status) then o.status.value else "active")
  {
    if o.Assigned? then OnStatusUpdated(list, id, if Truthy(o.status) then o.status.value else "active")
    else list
  }

  /** Going back to the list leaves the selected conversation's room. */
  function BackToList(selected: string): (e: ClientEvent)
    ensures e.LeaveConversation? && e.conversationId == selected
  {
    LeaveConversation(selected)
  }

  /** Selecting a conversation and then going back to the list, as the relay
      handles the two emits, leaves an attendant's rooms as they were when it
      did not already hold the conversation's room. */
  lemma BackToListUndoesSelect(list: seq<Summary>, r: SocketRelay.Relay, conn: ConnId, id: string, clientName: string)
    requires conn in r.sessions && r.sessions[conn].role == SocketRelay.AttendantRole
    requires ConversationRoom(id) !in r.sessions[conn].rooms
    ensures var s := Select(list, id, clientName);
            var joined := SocketRelay.Dispatch(r, conn, s.emit).relay;
            SocketRelay.Dispatch(joined, conn, BackToList(s.selected)).relay == r
  {
    SocketRelay.LeaveUndoesJoin(r, conn, id);
  }

  /** After a successful assignment that returns no status, the selected
      waiting conversation moves from the waiting tab to the active tab. */
  lemma AssignMovesToActive(list: seq<Summary>, i: nat)
    requires i < |list| && list[i].status == "waiting"
    ensures var r := ApplyAssign(list, list[i].id, Assigned(None));
            r[i] in ActiveTab(r) && r[i] !in WaitingTab(r)
  {
    var r := ApplyAssign(list, list[i].id, Assigned(None));
    assert r[i].status == "active";
    assert r[i] in r;
  }
}

=== FILE: audio_recorder.dfy ===
/** The voice recorder's elapsed-time counter and its `m:ss` display. */
module AudioRecorder {
  import opened Wrappers
  import opened Text

  /** `formatTime`: whole minutes, a colon, and the seconds padded to two digits. */
  function FormatTime(seconds: nat): (t: string)
    ensures |t| >= 4 && t[|t| - 3] == ':'
    ensures t[..|t| - 3] == NatToString(seconds / 60)
    ensures AllDigits(t[|t| - 2..]) && DigitsValue(t[|t| - 2..]) == seconds % 60
  {
    var m := NatToString(seconds / 60);
    var f := PadStart(NatToString(seconds % 60), 2, '0');
    SecondsField(seconds);
    NatToStringRoundTrip(seconds / 60);
    var t := m + ":" + f;
    assert t[..|t| - 3] == m;
    assert t[|t| - 2..] == f;
    t
  }

  /** Reads an `m:ss` display back: digits, a colon, two digits below 60. */
  function ParseTime(t: string): (r: Option<nat>)
    ensures r.Some? ==> |t| >= 4 && t[|t| - 3] == ':'
  {
    if |t| >= 4 && t[|t| - 3] == ':' && AllDigits(t[..|t| - 3]) && AllDigits(t[|t| - 2..])
       && DigitsValue(t[|t| - 2..]) < 60
    then Some(DigitsValue(t[..|t| - 3]) * 60 + DigitsValue(t[|t| - 2..]))
    else None
  }

  /** The seconds field is two digits worth `seconds % 60`. */
  lemma SecondsField(seconds: nat)
    ensures var f := PadStart(NatToString(seconds % 60), 2, '0');
            |f| == 2 && AllDigits(f) && DigitsValue(f) == seconds % 60
  {
    var s := NatToString(seconds % 60);
    NatToStringRoundTrip(seconds % 60);
    if seconds % 60 < 10 {
      assert PadStart(s, 2, '0') == "0" + s;
      LeadingZeroValue(s);
    }
  }

  /** The display has two seconds digits below 60 after the colon, and reading
      it back gives the counter: minutes * 60 + seconds. */
  lemma FormatTimeRoundTrip(seconds: nat)
    ensures var t := FormatTime(seconds);
            && |t| >= 4 && t[|t| - 3] == ':'
            && AllDigits(t[|t| - 2..]) && DigitsValue(t[|t| - 2..]) < 60
            && ParseTime(t) == Some(seconds)
  {
    NatToStringRoundTrip(seconds / 60);
  }

  /** The recorder: whether it is recording and the seconds counted. */
  datatype Recorder = Recorder(isRecording: bool, seconds: nat)

  /** `startRecording`: with microphone access, recording starts from 0;
      without it nothing changes. */
  function Start(r: Recorder, micGranted: bool): (r': Recorder)
    ensures micGranted ==> r' == Recorder(true, 0)
    ensures !micGranted ==> r' == r
  {
    if micGranted then Recorder(true, 0) else r
  }

  const MicrophoneError := "Erro ao acessar o microfone. Verifique as permiss\U{00F5}es."

  /** A start attempt's recorder and the alert the user sees. */
  datatype Started = Started(recorder: Recorder, alert: Option<string>)

  /** `startRecording` with its `catch`: the microphone alert appears exactly
      when access is refused, and then the recorder is left as it was;
      otherwise recording starts from 0. */
  function StartRecording(r: Recorder, micGranted: bool): (o: Started)
    ensures o.recorder == Start(r, micGranted)
    ensures o.alert.Some? <==> !micGranted
    ensures o.alert.Some? ==> o.alert.value == MicrophoneError && o.recorder == r
    ensures o.alert.None? ==> o.recorder.isRecording && o.recorder.seconds == 0
  {
    if micGranted then Started(Start(r, true), None) else Started(r, Some(MicrophoneError))
  }

  /** One timer tick; the timer exists only while recording. */
  function Tick(r: Recorder): (r': Recorder)
    ensures r.isRecording ==> r'.seconds == r.seconds + 1 && r'.isRecording
    ensures !r.isRecording ==> r' == r
  {
    if r.isRecording then r.(seconds := r.seconds + 1) else r
  }

  /** `stopRecording`: the counter keeps its value. */
  function Stop(r: Recorder): (r': Recorder)
    ensures !r'.isRecording && r'.seconds == r.seconds
  {
    r.(isRecording := false)
  }

  function Ticks(r: Recorder, n: nat): Recorder
  {
    if n == 0 then r else Tick(Ticks(r, n - 1))
  }

  /** After a granted start, n ticks leave the recorder recording at n. */
  lemma {:induction false} TicksFromStart(r: Recorder, n: nat)
    ensures Ticks(Start(r, true), n) == Recorder(true, n)
  {
    if n > 0 {
      TicksFromStart(r, n - 1);
    }
  }

  /** After a granted start and n ticks, the counter reads n, and the display
      after stopping shows n. */
  lemma CounterCountsTicks(r: Recorder, n: nat)
    ensures Ticks(Start(r, true), n) == Recorder(true, n)
    ensures ParseTime(FormatTime(Stop(Ticks(Start(r, true), n)).seconds)) == Some(n)
  {
    TicksFromStart(r, n);
    assert Stop(Ticks(Start(r, true), n)).seconds == n;
    FormatTimeRoundTrip(n);
  }
}

=== FILE: chat_interface.dfy ===
/** The message list of the chat screen: socket-pushed messages, the polling
    fallback, the optimistic entry of a send, and the media address rewrite. */
module ChatInterface {
  import opened Wrappers
  import opened Text
  import opened Seqs
  import opened Wire

  /** Ids of optimistic entries start with this prefix. */
  const TempPrefix := "temp-"
  /** An authoritative message may stand for a pending entry of the same sender
      whose timestamp is less than this many milliseconds away. */
  const MatchWindowMs := 5000

  predicate IsTemp(id: string)
  {
    TempPrefix <= id
  }

  function Abs(x: int): nat
  {
    if x < 0 then -x else x
  }

  /** `m` is an optimistic entry that the authoritative `incoming` may replace. */
  predicate PendingFor(m: Message, incoming: Message)
  {
    IsTemp(m.id) && m.sender == incoming.sender && Abs(m.createdAt - incoming.createdAt) < MatchWindowMs
  }

  predicate HasId(list: seq<Message>, id: string)
  {
    exists i :: 0 <= i < |list| && list[i].id == id
  }

  predicate UniqueIds(list: seq<Message>)
  {
    forall i, j :: 0 <= i < j < |list| ==> list[i].id != list[j].id
  }

  /** `findIndex` of the first pending entry for `incoming`, or -1. */
  function FirstPending(list: seq<Message>, incoming: Message): (k: int)
    ensures -1 <= k < |list|
    ensures k >= 0 ==> PendingFor(list[k], incoming)
    ensures forall j :: 0 <= j < |list| && (k == -1 || j < k) ==> !PendingFor(list[j], incoming)
  {
    if |list| == 0 then -1
    else if PendingFor(list[0], incoming) then 0
    else
      var k := FirstPending(list[1..], incoming);
      if k == -1 then -1 else k + 1
  }

  /** `handleNewMessage`: a message pushed by the relay. A known id is dropped;
      an authoritative message replaces the first pending entry it matches;
      anything else is appended. */
  function HandleNewMessage(list: seq<Message>, m: Message): (r: seq<Message>)
    ensures HasId(list, m.id) ==> r == list
    ensures !HasId(list, m.id) && !IsTemp(m.id) && (exists j :: 0 <= j < |list| && PendingFor(list[j], m)) ==>
              exists k :: 0 <= k < |list| && PendingFor(list[k], m)
                          && (forall j :: 0 <= j < k ==> !PendingFor(list[j], m))
                          && r == list[k := m]
    ensures !HasId(list, m.id) && (IsTemp(m.id) || forall j :: 0 <= j < |list| ==> !PendingFor(list[j], m)) ==>
              r == list + [m]
  {
    if HasId(list, m.id) then list
    else if !IsTemp(m.id) && FirstPending(list, m) != -1 then list[FirstPending(list, m) := m]
    else list + [m]
  }

  /** Ids stay unique, and the pushed id is then listed. */
  lemma HandleNewMessageKeepsIdsUnique(list: seq<Message>, m: Message)
    requires UniqueIds(list)
    ensures UniqueIds(HandleNewMessage(list, m))
    ensures HasId(HandleNewMessage(list, m), m.id)
  {
    var r := HandleNewMessage(list, m);
    if !HasId(list, m.id) {
      var n := |r| - 1;
      if !IsTemp(m.id) && FirstPending(list, m) != -1 {
        n := FirstPending(list, m);
      }
      assert r[n] == m;
    }
  }

  /** The polling predicate: a fetched message whose id is not yet listed. */
  function UnseenBy(prev: seq<Message>): Message -> bool
  {
    (msg: Message) => !HasId(prev, msg.id)
  }

  /** The polling fallback: the current list, then the fetched messages whose
      ids are not listed, in fetched order. */
  function PollMerge(prev: seq<Message>, fetched: seq<Message>): (r: seq<Message>)
    ensures |r| >= |prev| && r[..|prev|] == prev
    ensures forall i :: |prev| <= i < |r| ==> r[i] in fetched && !HasId(prev, r[i].id)
    ensures forall m :: m in fetched && !HasId(prev, m.id) ==> m in r[|prev|..]
    ensures forall m :: m in fetched ==> HasId(r, m.id)
  {
    var unseen := Filter(fetched, UnseenBy(prev));
    var r := prev + unseen;
    assert r[|prev|..] == unseen;
    UnseenAppendedCoversFetched(prev, fetched);
    r
  }

  /** Appending the unseen fetched messages leaves every fetched id listed. */
  lemma UnseenAppendedCoversFetched(prev: seq<Message>, fetched: seq<Message>)
    ensures var r := prev + Filter(fetched, UnseenBy(prev));
            forall m :: m in fetched ==> HasId(r, m.id)
  {
    var unseen := Filter(fetched, UnseenBy(prev));
    var r := prev + unseen;
    forall m | m in fetched ensures HasId(r, m.id) {
      if HasId(prev, m.id) {
        var i :| 0 <= i < |prev| && prev[i].id == m.id;
        assert r[i] == prev[i];
      } else {
        assert UnseenBy(prev)(m);
        var i :| 0 <= i < |unseen| && unseen[i] == m;
        assert r[|prev| + i] == m;
      }
    }
  }

  /** The appended part keeps the fetched order. */
  lemma PollMergeKeepsFetchedOrder(prev: seq<Message>, fetched: seq<Message>)
    ensures IsSubsequence(PollMerge(prev, fetched)[|prev|..], fetched)
  {
    var r := PollMerge(prev, fetched);
    assert r[|prev|..] == Filter(fetched, UnseenBy(prev));
    FilterIsSubsequence(fetched, UnseenBy(prev));
  }

  /** Polling twice with the same answer adds nothing the second time. */
  lemma PollMergeIdempotent(prev: seq<Message>, fetched: seq<Message>)
    ensures PollMerge(PollMerge(prev, fetched), fetched) == PollMerge(prev, fetched)
  {
    var r := PollMerge(prev, fetched);
    FilterNone(fetched, UnseenBy(r));
    assert r + [] == r;
  }

  lemma {:induction false} FilterKeepsIdsUnique(xs: seq<Message>, p: Message -> bool)
    requires UniqueIds(xs)
    ensures UniqueIds(Filter(xs, p))
  {
    if |xs| > 0 {
      FilterKeepsIdsUnique(xs[1..], p);
      var rest := Filter(xs[1..], p);
      forall j | 0 <= j < |rest| ensures rest[j].id != xs[0].id {
        var k :| 0 <= k < |xs[1..]| && xs[1..][k] == rest[j];
        assert xs[k + 1] == rest[j];
      }
    }
  }

  /** Merging a fetched list without repeated ids keeps ids unique. */
  lemma PollMergeKeepsIdsUnique(prev: seq<Message>, fetched: seq<Message>)
    requires UniqueIds(prev) && UniqueIds(fetched)
    ensures UniqueIds(PollMerge(prev, fetched))
  {
    var r := PollMerge(prev, fetched);
    FilterKeepsIdsUnique(fetched, UnseenBy(prev));
    forall i, j | 0 <= i < j < |r| ensures r[i].id != r[j].id {
      if j >= |prev| && i < |prev| {
        assert !HasId(prev, r[j].id);
        assert r[i] == prev[i];
      } else if i >= |prev| {
        assert r[i] == Filter(fetched, UnseenBy(prev))[i - |prev|];
        assert r[j] == Filter(fetched, UnseenBy(prev))[j - |prev|];
      }
    }
  }

  // ---------------------------------------------------------------------
  // Sending

  /** The arguments of one `handleSendMessage` call: the `content` argument
      (absent when the form is submitted) and the attachment. */
  datatype SendInput = SendInput(
    content: Option<string>,
    kind: string,
    fileUrl: Option<string>,
    fileName: Option<string>,
    fileSize: Option<int>)

  /** The body of the POST that persists a sent message. */
  datatype PostBody = PostBody(
    content: string,
    sender: string,
    kind: string,
    fileUrl: Option<string>,
    fileName: Option<string>,
    fileSize: Option<int>)

  /** The state right after the optimistic insert: the list, the input box,
      the pending entry's id, the `stop-typing` emit and the POST to make. */
  datatype Sending = Sending(
    messages: seq<Message>,
    input: string,
    tempId: string,
    stopTyping: ClientEvent,
    post: PostBody)

  /** The text of a send: the `content` argument when truthy, else the trimmed
      input box. */
  function MessageContent(input: string, content: Option<string>): string
  {
    if Truthy(content) then content.value else Trim(input)
  }

  /** The text shown for an optimistic media message without text. */
  function Placeholder(kind: string): (text: string)
    ensures kind !in {"image", "video", "audio"} <==> text == ""
  {
    if kind == "image" then "\U{1F4F7} Foto"
    else if kind == "video" then "\U{1F3A5} V\U{00ED}deo"
    else if kind == "audio" then "\U{1F3A4} \U{00C1}udio"
    else ""
  }

  function TempId(now: nat): (id: string)
    ensures IsTemp(id)
  {
    TempPrefix + NatToString(now)
  }

  function SenderOf(isClient: bool): string
  {
    if isClient then "client" else "attendant"
  }

  /** `handleSendMessage` up to the POST. `idClock` is the `Date.now()` behind
      the temporary id and `clock` the instant stamped on the entry. */
  function StartSend(list: seq<Message>, input: string, req: SendInput, isClient: bool,
                     conversationId: string, idClock: nat, clock: int): (r: Option<Sending>)
    ensures r.None? <==> MessageContent(input, req.content) == "" && !Truthy(req.fileUrl)
    ensures r.Some? ==>
              var s := r.value;
              && |s.messages| == |list| + 1 && s.messages[..|list|] == list
              && s.tempId == TempId(idClock)
              && s.messages[|list|].id == s.tempId
              && s.messages[|list|].sender == SenderOf(isClient)
              && s.messages[|list|].createdAt == clock
              && s.messages[|list|].kind == req.kind
              && (s.messages[|list|].fileUrl.Some? <==> Truthy(req.fileUrl))
              && (Truthy(req.fileUrl) ==> s.messages[|list|].fileUrl == req.fileUrl)
              && (s.messages[|list|].fileName.Some? <==> Truthy(req.fileName))
              && (Truthy(req.fileName) ==> s.messages[|list|].fileName == req.fileName)
              && (s.messages[|list|].fileSize.Some? <==> req.fileSize.Some? && req.fileSize.value != 0)
              && (s.messages[|list|].fileSize.Some? ==> s.messages[|list|].fileSize == req.fileSize)
              && s.stopTyping == StopTyping(conversationId)
              && s.post.content == MessageContent(input, req.content)
              && s.post.sender == s.messages[|list|].sender
              && s.post.kind == req.kind
              && s.post.fileUrl == req.fileUrl && s.post.fileName == req.fileName
              && s.post.fileSize == req.fileSize
    ensures r.Some? && MessageContent(input, req.content) == "" ==>
              r.value.messages[|list|].content == Placeholder(req.kind)
    ensures r.Some? && MessageContent(input, req.content) != "" ==>
              r.value.messages[|list|].content == MessageContent(input, req.content)
    ensures r.Some? ==> r.value.input == (if Truthy(req.content) then input else "")
  {
    var text := MessageContent(input, req.content);
    if text == "" && !Truthy(req.fileUrl) then None
    else
      var tempId := TempId(idClock);
      var sender := SenderOf(isClient);
      var optimistic := Message(tempId, if text != "" then text else Placeholder(req.kind), req.kind,
                                OrNull(req.fileUrl), OrNull(req.fileName), NonZeroOrNull(req.fileSize),
                                sender, clock);
      Some(Sending(list + [optimistic], if Truthy(req.content) then input else "", tempId,
                   StopTyping(conversationId),
                   PostBody(text, sender, req.kind, req.fileUrl, req.fileName, req.fileSize)))
  }

  /** The removal predicate of a failed POST: entries other than the pending one. */
  function Keeps(tempId: string): Message -> bool
  {
    (m: Message) => m.id != tempId
  }

  /** How the POST of a send ended. */
  datatype PostOutcome = PostOk(message: Message) | PostRejected | PostThrew

  /** The list after the POST: on success every entry with the temporary id is
      replaced in place by the server's copy, otherwise those entries are removed. */
  function ApplyPostOutcome(list: seq<Message>, tempId: string, o: PostOutcome): (r: seq<Message>)
    ensures o.PostOk? ==> |r| == |list|
    ensures o.PostOk? ==> forall i :: 0 <= i < |list| ==>
              r[i] == (if list[i].id == tempId then o.message else list[i])
    ensures !o.PostOk? ==> !HasId(r, tempId)
    ensures !o.PostOk? ==> IsSubsequence(r, list)
    ensures !o.PostOk? ==> forall m :: m in list && m.id != tempId ==> m in r
  {
    match o
    case PostOk(server) => seq(|list|, i requires 0 <= i < |list| => if list[i].id == tempId then server else list[i])
    case _ =>
      FilterIsSubsequence(list, Keeps(tempId));
      Filter(list, Keeps(tempId))
  }

  const SendFailed := "Erro ao enviar mensagem. Tente novamente."

  /** The list after the POST together with the alert the user sees. */
  datatype Posted = Posted(messages: seq<Message>, alert: Option<string>)

  /** The end of `handleSendMessage`: the list update and, on a rejected or
      thrown POST, the error alert. While the pending entry is listed, the
      alert appears exactly when the list gets shorter. */
  function FinishSend(list: seq<Message>, tempId: string, o: PostOutcome): (p: Posted)
    ensures p.messages == ApplyPostOutcome(list, tempId, o)
    ensures p.alert.Some? <==> !o.PostOk?
    ensures p.alert.Some? ==> p.alert.value == SendFailed
    ensures HasId(list, tempId) ==> (p.alert.Some? <==> |p.messages| < |list|)
  {
    FailedPostShortens(list, tempId, o);
    Posted(ApplyPostOutcome(list, tempId, o), if o.PostOk? then None else Some(SendFailed))
  }

  /** A failed POST removes at least the listed pending entry. */
  lemma FailedPostShortens(list: seq<Message>, tempId: string, o: PostOutcome)
    ensures HasId(list, tempId) && !o.PostOk? ==> |ApplyPostOutcome(list, tempId, o)| < |list|
  {
    if HasId(list, tempId) && !o.PostOk? {
      var i :| 0 <= i < |list| && list[i].id == tempId;
      FilterDropsSome(list, Keeps(tempId), i);
    }
  }

  /** When entry k is the only one with id t, removing id t removes entry k only. */
  lemma FilterOutOnly(list: seq<Message>, t: string, k: nat)
    requires k < |list| && list[k].id == t
    requires forall j :: 0 <= j < |list| && j != k ==> list[j].id != t
    ensures Filter(list, Keeps(t)) == list[..k] + list[k + 1..]
  {
    FilterDropsOnly(list, Keeps(t), k);
  }

  /** With unique ids, a failed POST removes exactly the pending entry. */
  lemma FailedPostRemovesOnlyPending(list: seq<Message>, k: nat, o: PostOutcome)
    requires UniqueIds(list) && k < |list| && !o.PostOk?
    ensures ApplyPostOutcome(list, list[k].id, o) == list[..k] + list[k + 1..]
  {
    forall j | 0 <= j < |list| && j != k ensures list[j].id != list[k].id {
      if j < k {
        assert list[j].id != list[k].id;
      }
    }
    FilterOutOnly(list, list[k].id, k);
  }

  /** A send whose POST fails leaves the list as it was before the send,
      provided no entry already carried the new temporary id. */
  lemma RejectedSendRestoresList(list: seq<Message>, input: string, req: SendInput, isClient: bool,
                                 conversationId: string, idClock: nat, clock: int, o: PostOutcome)
    requires !HasId(list, TempId(idClock))
    requires StartSend(list, input, req, isClient, conversationId, idClock, clock).Some?
    requires !o.PostOk?
    ensures var s := StartSend(list, input, req, isClient, conversationId, idClock, clock).value;
            ApplyPostOutcome(s.messages, s.tempId, o) == list
  {
    var s := StartSend(list, input, req, isClient, conversationId, idClock, clock).value;
    forall j | 0 <= j < |s.messages| && j != |list| ensures s.messages[j].id != s.tempId {
      assert s.messages[j] == list[j];
    }
    FilterOutOnly(s.messages, s.tempId, |list|);
    assert s.messages[..|list|] + s.messages[|list| + 1..] == list;
  }

  /** A send whose POST succeeds leaves the list as it was before the send
      followed by the server's copy, provided no entry already carried the new
      temporary id. */
  lemma AcceptedSendAppendsServerCopy(list: seq<Message>, input: string, req: SendInput, isClient: bool,
                                      conversationId: string, idClock: nat, clock: int, server: Message)
    requires !HasId(list, TempId(idClock))
    requires StartSend(list, input, req, isClient, conversationId, idClock, clock).Some?
    ensures var s := StartSend(list, input, req, isClient, conversationId, idClock, clock).value;
            ApplyPostOutcome(s.messages, s.tempId, PostOk(server)) == list + [server]
  {
    var s := StartSend(list, input, req, isClient, conversationId, idClock, clock).value;
    var r := ApplyPostOutcome(s.messages, s.tempId, PostOk(server));
    forall j | 0 <= j < |r| ensures r[j] == (list + [server])[j] {
      if j < |list| {
        assert s.messages[j] == list[j];
      }
    }
  }

  /** Once the server copy has replaced the pending entry, the relay's push of
      the same message is dropped. */
  lemma EchoAfterReplaceIsDropped(list: seq<Message>, tempId: string, server: Message)
    requires HasId(list, tempId)
    ensures var r := ApplyPostOutcome(list, tempId, PostOk(server));
            HandleNewMessage(r, server) == r
  {
    var r := ApplyPostOutcome(list, tempId, PostOk(server));
    var i :| 0 <= i < |list| && list[i].id == tempId;
    assert r[i] == server;
  }

  /** The relay's push arriving 5 s or more away from the pending entry (for
      example when the phone's clock is behind the server's) is appended; the
      POST answer then replaces the pending entry with the same message, so the
      list holds it twice. */
  lemma LateEchoDuplicates()
    ensures var pending := Message("temp-1000", "Oi", "text", None, None, None, "client", 1000);
            var server := Message("abc", "Oi", "text", None, None, None, "client", 7000);
            var afterEcho := HandleNewMessage([pending], server);
            var afterPost := ApplyPostOutcome(afterEcho, pending.id, PostOk(server));
            afterEcho == [pending, server] && afterPost == [server, server] && !UniqueIds(afterPost)
  {
    var pending := Message("temp-1000", "Oi", "text", None, None, None, "client", 1000);
    var server := Message("abc", "Oi", "text", None, None, None, "client", 7000);
    assert !IsTemp(server.id) by { assert server.id[0] != TempPrefix[0]; }
    assert !HasId([pending], server.id) by { assert pending.id[0] != server.id[0]; }
    assert !PendingFor(pending, server);
    var afterEcho := HandleNewMessage([pending], server);
    assert afterEcho == [pending, server];
    var afterPost := ApplyPostOutcome(afterEcho, pending.id, PostOk(server));
    assert afterPost[0] == server;
    assert afterPost[1] == server by { assert afterEcho[1].id != pending.id by { assert server.id[0] != pending.id[0]; } }
    assert afterPost == [server, server];
  }

  /** The POST answer handled so that a server id already listed is not
      inserted a second time: the pending entry is then only removed. */
  function ApplyPostOutcomeDedup(list: seq<Message>, tempId: string, o: PostOutcome): (r: seq<Message>)
    ensures o.PostOk? && !HasId(list, o.message.id) ==> r == ApplyPostOutcome(list, tempId, o)
    ensures !o.PostOk? ==> r == ApplyPostOutcome(list, tempId, o)
    ensures o.PostOk? && HasId(list, o.message.id) ==> r == ApplyPostOutcome(list, tempId, PostRejected)
  {
    if o.PostOk? && HasId(list, o.message.id) then ApplyPostOutcome(list, tempId, PostRejected)
    else ApplyPostOutcome(list, tempId, o)
  }

  /** On the run where the original handling lists `abc` twice, the corrected
      handling lists it once. */
  lemma LateEchoResolved()
    ensures var pending := Message("temp-1000", "Oi", "text", None, None, None, "client", 1000);
            var server := Message("abc", "Oi", "text", None, None, None, "client", 7000);
            var afterEcho := HandleNewMessage([pending], server);
            ApplyPostOutcomeDedup(afterEcho, pending.id, PostOk(server)) == [server]
  {
    var pending := Message("temp-1000", "Oi", "text", None, None, None, "client", 1000);
    var server := Message("abc", "Oi", "text", None, None, None, "client", 7000);
    LateEchoDuplicates();
    var afterEcho := HandleNewMessage([pending], server);
    assert afterEcho[1] == server;
    var keep := Keeps(pending.id);
    assert !keep(afterEcho[0]);
    assert keep(afterEcho[1]) by { assert server.id[0] != pending.id[0]; }
    assert afterEcho[1..][1..] == [];
  }

  /** The corrected handling never lists an id twice, and after a successful
      POST of a listed pending entry the server's id is listed. */
  lemma DedupKeepsIdsUnique(list: seq<Message>, tempId: string, o: PostOutcome)
    requires UniqueIds(list)
    ensures UniqueIds(ApplyPostOutcomeDedup(list, tempId, o))
    ensures o.PostOk? && o.message.id != tempId && (HasId(list, tempId) || HasId(list, o.message.id)) ==>
              HasId(ApplyPostOutcomeDedup(list, tempId, o), o.message.id)
  {
    var r := ApplyPostOutcomeDedup(list, tempId, o);
    if o.PostOk? && !HasId(list, o.message.id) {
      forall i, j | 0 <= i < j < |r| ensures r[i].id != r[j].id {
        if list[i].id == tempId && list[j].id == tempId {
          assert false;
        } else if list[i].id == tempId {
          assert r[j] == list[j];
        } else if list[j].id == tempId {
          assert r[i] == list[i];
        }
      }
      if HasId(list, tempId) {
        var i :| 0 <= i < |list| && list[i].id == tempId;
        assert r[i] == o.message;
      }
    } else {
      var keep := Keeps(tempId);
      assert r == Filter(list, keep);
      FilterKeepsIdsUnique(list, keep);
      if o.PostOk? && o.message.id != tempId {
        var i :| 0 <= i < |list| && list[i].id == o.message.id;
        assert list[i] in list && keep(list[i]);
        var j :| 0 <= j < |r| && r[j] == list[i];
      }
    }
  }

  // ---------------------------------------------------------------------
  // Media addresses

  function StripPrefix(s: string, prefix: string): (r: string)
    ensures prefix <= s ==> s == prefix + r
    ensures !(prefix <= s) ==> r == s
    ensures |s| - |prefix| <= |r| <= |s| && r == s[|s| - |r|..]
  {
    if prefix <= s then s[|prefix|..] else s
  }

  /** Removing two prefixes in turn drops at most their combined length from
      the front and keeps the rest. */
  lemma StripTwice(u: string, p1: string, p2: string)
    ensures var r := StripPrefix(StripPrefix(u, p1), p2);
            |u| - |p1| - |p2| <= |r| <= |u| && r == u[|u| - |r|..]
    ensures !(p1 <= u) && !(p2 <= u) ==> StripPrefix(StripPrefix(u, p1), p2) == u
    ensures p1 <= u && !(p2 <= u[|p1|..]) ==> StripPrefix(StripPrefix(u, p1), p2) == u[|p1|..]
    ensures p1 <= u && p2 <= u[|p1|..] ==> StripPrefix(StripPrefix(u, p1), p2) == u[|p1| + |p2|..]
    ensures !(p1 <= u) && p2 <= u ==> StripPrefix(StripPrefix(u, p1), p2) == u[|p2|..]
  {
    var once := StripPrefix(u, p1);
    var r := StripPrefix(once, p2);
    assert r == once[|once| - |r|..];
    assert once[|once| - |r|..] == u[|u| - |r|..];
  }

  /** The address a media message is loaded from: a leading `/uploads/`, then a
      leading `/`, removed, and the file API prefix put in front. */
  function MediaSrc(fileUrl: string): (src: string)
    ensures "/api/uploads/" <= src
    ensures exists dropped :: 0 <= dropped <= 10 && dropped <= |fileUrl| && src == "/api/uploads/" + fileUrl[dropped..]
    ensures !("/" <= fileUrl) ==> src == "/api/uploads/" + fileUrl
    ensures "/uploads/" <= fileUrl && !("/" <= fileUrl[9..]) ==> src == "/api/uploads/" + fileUrl[9..]
    ensures "/uploads/" <= fileUrl && "/" <= fileUrl[9..] ==> src == "/api/uploads/" + fileUrl[10..]
    ensures "/" <= fileUrl && !("/uploads/" <= fileUrl) ==> src == "/api/uploads/" + fileUrl[1..]
  {
    var rest := StripPrefix(StripPrefix(fileUrl, "/uploads/"), "/");
    UploadsRest(fileUrl);
    PrefixThenRest("/api/uploads/", rest);
    var dropped := |fileUrl| - |rest|;
    assert rest == fileUrl[dropped..];
    "/api/uploads/" + rest
  }

  /** A concatenation starts with its first part and continues with the second. */
  lemma PrefixThenRest(pre: string, rest: string)
    ensures pre <= pre + rest && |pre + rest| == |pre| + |rest| && (pre + rest)[|pre|..] == rest
  {
  }

  /** `StripTwice` for the two prefixes `MediaSrc` removes, case by case. */
  lemma UploadsRest(u: string)
    ensures var r := StripPrefix(StripPrefix(u, "/uploads/"), "/");
            && |u| - 10 <= |r| <= |u| && r == u[|u| - |r|..]
            && (!("/" <= u) ==> r == u)
            && ("/uploads/" <= u && !("/" <= u[9..]) ==> r == u[9..])
            && ("/uploads/" <= u && "/" <= u[9..] ==> r == u[10..])
            && ("/" <= u && !("/uploads/" <= u) ==> r == u[1..])
  {
    StripTwice(u, "/uploads/", "/");
    assert |"/uploads/"| == 9 && |"/"| == 1;
    if "/uploads/" <= u {
      assert u[0] == '/';
    }
  }

  /** The media element of a message: image, video and audio messages with a
      file address show it through `MediaSrc`; every other message shows text. */
  function RenderedMedia(m: Message): (src: Option<string>)
    ensures src.Some? <==> m.kind in {"image", "video", "audio"} && Truthy(m.fileUrl)
    ensures src.Some? ==> src.value == MediaSrc(m.fileUrl.value)
  {
    if m.kind in {"image", "video", "audio"} && Truthy(m.fileUrl) then Some(MediaSrc(m.fileUrl.value)) else None
  }
}

=== FILE: conversation_list.dfy ===
/** One tab of the attendant's conversation list: the closed-status labels, the
    row tag, the elapsed-time bucket and the row click. */
module ConversationList {
  import opened Wrappers
  import opened Text
  import opened Wire

  datatype Variant = WaitingVariant | ActiveVariant | ClosedVariant

  const HourMs := 3_600_000

  /** The closed-tab label; any status without one reads as finished. */
  function StatusLabel(status: string): (text: string)
    ensures status !in {"closed", "completed", "sold", "cancelled"} ==> text == "Finalizada"
    ensures status == "closed" ==> text == "Encerrada"
    ensures status == "completed" ==> text == "Finalizada"
    ensures status == "sold" ==> text == "Venda Finalizada"
    ensures status == "cancelled" ==> text == "Cancelada"
  {
    match status
    case "closed" => "Encerrada"
    case "completed" => "Finalizada"
    case "sold" => "Venda Finalizada"
    case "cancelled" => "Cancelada"
    case _ => "Finalizada"
  }

  /** The tag of a row: the upper-cased label in the closed tab, a fixed word otherwise. */
  function Tag(variant: Variant, status: string): (tag: string)
    ensures variant == ClosedVariant ==> tag == Upper(StatusLabel(status))
    ensures variant == WaitingVariant ==> tag == "NOVO"
    ensures variant == ActiveVariant ==> tag == "ATIVO"
  {
    match variant
    case WaitingVariant => "NOVO"
    case ActiveVariant => "ATIVO"
    case ClosedVariant => Upper(StatusLabel(status))
  }

  /** The closed-tab tags spelled out. */
  lemma ClosedTags(status: string)
    ensures status == "closed" ==> Tag(ClosedVariant, status) == "ENCERRADA"
    ensures status == "sold" ==> Tag(ClosedVariant, status) == "VENDA FINALIZADA"
    ensures status == "cancelled" ==> Tag(ClosedVariant, status) == "CANCELADA"
    ensures status !in {"closed", "sold", "cancelled"} ==> Tag(ClosedVariant, status) == "FINALIZADA"
  {
  }

  /** How a row's time reads: nothing, the clock time of the instant, `Ontem`,
      or a relative phrase for the instant. */
  datatype TimeText = NoTime | ClockTime(at: int) | Yesterday | Relative(at: int)

  /** `formatTime`: the bucket of the elapsed time since `at`. */
  function FormatTime(at: Option<int>, now: int): (t: TimeText)
    ensures at.None? <==> t == NoTime
    ensures at.Some? && now - at.value < 24 * HourMs ==> t == ClockTime(at.value)
    ensures at.Some? && 24 * HourMs <= now - at.value < 48 * HourMs ==> t == Yesterday
    ensures at.Some? && 48 * HourMs <= now - at.value ==> t == Relative(at.value)
  {
    if at.None? then NoTime
    else if now - at.value < 24 * HourMs then ClockTime(at.value)
    else if now - at.value < 48 * HourMs then Yesterday
    else Relative(at.value)
  }

  function Rank(t: TimeText): nat
  {
    match t
    case NoTime => 0
    case ClockTime(_) => 1
    case Yesterday => 2
    case Relative(_) => 3
  }

  /** As time passes a row only moves to older buckets; an instant in the
      future reads as a clock time. */
  lemma BucketsAge(at: int, now1: int, now2: int)
    requires now1 <= now2
    ensures Rank(FormatTime(Some(at), now1)) <= Rank(FormatTime(Some(at), now2))
    ensures now1 < at ==> FormatTime(Some(at), now1) == ClockTime(at)
  {
  }

  /** What a row shows and what clicking it passes on. */
  datatype Row = Row(name: string, tag: string, phone: string, lastMessage: Option<string>,
                     time: TimeText, click: (string, string))

  /** A row shows the client's name and phone, the tag, the last message only
      when it is non-empty, and the age bucket of the last message's time;
      clicking it passes the conversation's id and client name. */
  function RenderRow(variant: Variant, c: Summary, now: int): (row: Row)
    ensures row.name == c.clientName && row.phone == c.clientPhone
    ensures row.tag == Tag(variant, c.status)
    ensures row.lastMessage.Some? <==> Truthy(c.lastMessage)
    ensures row.lastMessage.Some? ==> row.lastMessage == c.lastMessage
    ensures row.time.NoTime? <==> c.lastMessageTime.None?
    ensures row.click == (c.id, c.clientName)
  {
    Row(c.clientName, Tag(variant, c.status), c.clientPhone,
        if Truthy(c.lastMessage) then c.lastMessage else None,
        FormatTime(c.lastMessageTime, now), (c.id, c.clientName))
  }

  /** One row per conversation, in order; clicking row i passes exactly that
      conversation's id and client name. */
  function RenderRows(variant: Variant, cs: seq<Summary>, now: int): (rows: seq<Row>)
    ensures |rows| == |cs|
    ensures forall i :: 0 <= i < |cs| ==> rows[i].click == (cs[i].id, cs[i].clientName)
    ensures forall i :: 0 <= i < |cs| ==> rows[i].tag == Tag(variant, cs[i].status)
    ensures forall i :: 0 <= i < |cs| ==> rows[i] == RenderRow(variant, cs[i], now)
  {
    seq(|cs|, i requires 0 <= i < |cs| => RenderRow(variant, cs[i], now))
  }
}

=== FILE: conversations_api.dfy ===
/** The conversation collection route: creating a conversation (validation,
    initial status, the attendant notification) and listing conversations. */
module ConversationsApi {
  import opened Wrappers
  import opened Wire

  /** A stored conversation; instants are integer milliseconds. */
  datatype ConversationRecord = ConversationRecord(
    id: string,
    clientName: string,
    clientPhone: string,
    status: string,
    assignedTo: Option<string>,
    createdAt: int,
    updatedAt: int)

  /** A stored message with the conversation it belongs to. */
  datatype MessageRecord = MessageRecord(conversationId: string, message: Message)

  /** The store, as two tables. */
  datatype Store = Store(conversations: seq<ConversationRecord>, messages: seq<MessageRecord>)

  /** The JSON body of a create request; an absent field is a missing key. */
  datatype CreateBody = CreateBody(clientName: Option<string>, clientPhone: Option<string>)

  /** A live broadcaster; `emitThrows` says whether emitting to it throws. */
  datatype Server = Server(emitThrows: bool)

  datatype Body =
    | ErrorBody(error: string)
    | CreatedBody(conversation: ConversationRecord)
    | ListBody(conversations: seq<Summary>)

  datatype Response = Response(status: int, body: Body)

  /** A create request's answer, the store after it, and what it broadcast. */
  datatype Created = Created(response: Response, store: Store, emissions: seq<Emission>)

  const MissingFieldsError := "Nome e telefone s\U{00E3}o obrigat\U{00F3}rios"
  const CreateError := "Erro ao criar conversa"
  const ListError := "Erro ao buscar conversas"

  /** The `new-conversation` payload for a created conversation. */
  function Announcement(c: ConversationRecord): Summary
  {
    Summary(c.id, c.clientName, c.clientPhone, c.status, None, Some(c.createdAt), None)
  }

  /** `POST`. `body` is None when the request is not JSON; `createFails` says
      whether the store's create throws; `io` is what `getIO` returned. */
  function Post(store: Store, body: Option<CreateBody>, newId: string, now: int,
                createFails: bool, io: Option<Server>): (r: Created)
    ensures body.Some? && (!Truthy(body.value.clientName) || !Truthy(body.value.clientPhone)) ==>
              r.response == Response(400, ErrorBody(MissingFieldsError))
    ensures body.None? || (Truthy(body.value.clientName) && Truthy(body.value.clientPhone) && createFails) ==>
              r.response == Response(500, ErrorBody(CreateError))
    ensures r.response.status != 200 ==> r.store == store && r.emissions == []
    ensures r.response.status == 200 <==>
              body.Some? && Truthy(body.value.clientName) && Truthy(body.value.clientPhone) && !createFails
    ensures r.response.status == 200 ==>
              && r.response.body.CreatedBody?
              && var c := r.response.body.conversation;
              && c.status == "waiting" && c.assignedTo.None?
              && c.clientName == body.value.clientName.value
              && c.clientPhone == body.value.clientPhone.value
              && r.store == Store(store.conversations + [c], store.messages)
    ensures r.emissions != [] ==> io.Some? && !io.value.emitThrows
    ensures r.emissions != [] ==>
              r.emissions == [Emission(AttendantsRoom, None, NewConversation(Announcement(r.response.body.conversation)))]
    ensures r.response.status == 200 && io.Some? && !io.value.emitThrows ==> r.emissions != []
  {
    if body.None? then Created(Response(500, ErrorBody(CreateError)), store, [])
    else if !Truthy(body.value.clientName) || !Truthy(body.value.clientPhone) then
      Created(Response(400, ErrorBody(MissingFieldsError)), store, [])
    else if createFails then Created(Response(500, ErrorBody(CreateError)), store, [])
    else
      var c := ConversationRecord(newId, body.value.clientName.value, body.value.clientPhone.value,
                                  "waiting", None, now, now);
      var emissions := if io.Some? && !io.value.emitThrows
                       then [Emission(AttendantsRoom, None, NewConversation(Announcement(c)))]
                       else [];
      Created(Response(200, CreatedBody(c)), Store(store.conversations + [c], store.messages), emissions)
  }

  /** A missing broadcaster or a throwing emit does not change the answer or
      the store: the notification is a soft failure. */
  lemma BroadcastIsSoft(store: Store, body: Option<CreateBody>, newId: string, now: int,
                        createFails: bool, io1: Option<Server>, io2: Option<Server>)
    ensures Post(store, body, newId, now, createFails, io1).response == Post(store, body, newId, now, createFails, io2).response
    ensures Post(store, body, newId, now, createFails, io1).store == Post(store, body, newId, now, createFails, io2).store
  {
  }

  // ---------------------------------------------------------------------
  // Listing

  predicate SortedByUpdatedDesc(cs: seq<ConversationRecord>)
  {
    forall i, j :: 0 <= i < j < |cs| ==> cs[i].updatedAt >= cs[j].updatedAt
  }

  /** A record no older than the head of a sorted list can go in front of it. */
  lemma PrependSorted(c: ConversationRecord, rest: seq<ConversationRecord>)
    requires SortedByUpdatedDesc(rest)
    requires |rest| > 0 ==> rest[0].updatedAt <= c.updatedAt
    ensures SortedByUpdatedDesc([c] + rest)
  {
    var r := [c] + rest;
    forall i, j | 0 <= i < j < |r| ensures r[i].updatedAt >= r[j].updatedAt {
      assert r[j] == rest[j - 1];
      if i > 0 {
        assert r[i] == rest[i - 1];
      } else if j > 1 {
        assert rest[0].updatedAt >= rest[j - 1].updatedAt;
      }
    }
  }

  function InsertByUpdated(c: ConversationRecord, sorted: seq<ConversationRecord>): (r: seq<ConversationRecord>)
    requires SortedByUpdatedDesc(sorted)
    ensures |r| == |sorted| + 1
    ensures r[0] == c || (|sorted| > 0 && r[0] == sorted[0])
    ensures SortedByUpdatedDesc(r)
    ensures multiset(r) == multiset(sorted) + multiset{c}
  {
    if |sorted| == 0 then [c]
    else if c.updatedAt >= sorted[0].updatedAt then
      PrependSorted(c, sorted);
      [c] + sorted
    else
      var head := sorted[0];
      var tail := sorted[1..];
      assert SortedByUpdatedDesc(tail) by {
        forall i, j | 0 <= i < j < |tail| ensures tail[i].updatedAt >= tail[j].updatedAt {
          assert tail[i] == sorted[i + 1] && tail[j] == sorted[j + 1];
        }
      }
      var rest := InsertByUpdated(c, tail);
      assert |tail| > 0 ==> tail[0] == sorted[1];
      PrependSorted(head, rest);
      assert sorted == [head] + tail;
      [head] + rest
  }

  /** `orderBy: { updatedAt: 'desc' }`: the same records, most recently updated first. */
  function SortByUpdatedDesc(cs: seq<ConversationRecord>): (r: seq<ConversationRecord>)
    ensures SortedByUpdatedDesc(r)
    ensures |r| == |cs|
    ensures multiset(r) == multiset(cs)
  {
    if |cs| == 0 then []
    else
      assert cs == [cs[0]] + cs[1..];
      InsertByUpdated(cs[0], SortByUpdatedDesc(cs[1..]))
  }

  /** The newest message of a conversation (the first stored one among equally
      new messages), as `orderBy: { createdAt: 'desc' }, take: 1` picks it. */
  function Newest(msgs: seq<MessageRecord>, conversationId: string): (r: Option<Message>)
    ensures r.None? <==> forall i :: 0 <= i < |msgs| ==> msgs[i].conversationId != conversationId
    ensures r.Some? ==> exists i :: 0 <= i < |msgs| && msgs[i].conversationId == conversationId && msgs[i].message == r.value
    ensures r.Some? ==> forall i :: 0 <= i < |msgs| && msgs[i].conversationId == conversationId ==>
                          msgs[i].message.createdAt <= r.value.createdAt
  {
    if |msgs| == 0 then None
    else
      var rest := Newest(msgs[1..], conversationId);
      if msgs[0].conversationId != conversationId then rest
      else if rest.Some? && rest.value.createdAt > msgs[0].message.createdAt then rest
      else Some(msgs[0].message)
  }

  /** One listed conversation, with its newest message's text and time. */
  function Listed(c: ConversationRecord, newest: Option<Message>): Summary
  {
    Summary(c.id, c.clientName, c.clientPhone, c.status,
            if newest.Some? then Some(newest.value.content) else None,
            if newest.Some? then Some(newest.value.createdAt) else None,
            None)
  }

  /** `GET`. `fails` says whether the store's query throws. */
  function Get(store: Store, fails: bool): (r: Response)
    ensures fails ==> r == Response(500, ErrorBody(ListError))
    ensures !fails ==> r.status == 200 && r.body.ListBody?
    ensures !fails ==>
              var order := SortByUpdatedDesc(store.conversations);
              var out := r.body.conversations;
              && |out| == |store.conversations|
              && (forall i :: 0 <= i < |out| ==>
                    out[i].id == order[i].id && out[i].status == order[i].status
                    && out[i].clientName == order[i].clientName && out[i].clientPhone == order[i].clientPhone
                    && out[i].unreadCount.None?
                    && (out[i].lastMessage.None? <==> Newest(store.messages, order[i].id).None?)
                    && (out[i].lastMessage.None? ==> out[i].lastMessageTime.None?)
                    && (out[i].lastMessage.Some? ==>
                          out[i].lastMessage.value == Newest(store.messages, order[i].id).value.content
                          && out[i].lastMessageTime == Some(Newest(store.messages, order[i].id).value.createdAt)))
  {
    if fails then Response(500, ErrorBody(ListError))
    else
      var order := SortByUpdatedDesc(store.conversations);
      assert |multiset(order)| == |multiset(store.conversations)|;
      Response(200, ListBody(seq(|order|, i requires 0 <= i < |order| => Listed(order[i], Newest(store.messages, order[i].id)))))
  }

  /** The listing has one entry per stored conversation, most recently updated
      first. */
  lemma ListingIsOrderedPermutation(store: Store)
    ensures var order := SortByUpdatedDesc(store.conversations);
            SortedByUpdatedDesc(order)
            && (forall c :: c in order <==> c in store.conversations)
            && |order| == |store.conversations|
  {
    var order := SortByUpdatedDesc(store.conversations);
    assert |multiset(order)| == |multiset(store.conversations)|;
    forall c ensures c in order <==> c in store.conversations {
      assert c in order <==> c in multiset(order);
      assert c in store.conversations <==> c in multiset(store.conversations);
    }
  }

  /** A conversation created by `POST` is listed as waiting and without a last
      message while it has no messages. */
  lemma CreatedIsListedWaiting(store: Store, name: string, phone: string, newId: string, now: int, io: Option<Server>)
    requires name != "" && phone != ""
    requires forall i :: 0 <= i < |store.messages| ==> store.messages[i].conversationId != newId
    ensures var p := Post(store, Some(CreateBody(Some(name), Some(phone))), newId, now, false, io);
            var out := Get(p.store, false).body.conversations;
            exists i :: 0 <= i < |out| && out[i].id == newId && out[i].status == "waiting" && out[i].lastMessage.None?
  {
    var p := Post(store, Some(CreateBody(Some(name), Some(phone))), newId, now, false, io);
    var c := p.response.body.conversation;
    ListingIsOrderedPermutation(p.store);
    var order := SortByUpdatedDesc(p.store.conversations);
    assert c in p.store.conversations by {
      assert p.store.conversations[|store.conversations|] == c;
    }
    var i :| 0 <= i < |order| && order[i] == c;
    var out := Get(p.store, false).body.conversations;
    assert out[i].id == newId;
  }
}

=== FILE: leads_list.dfy ===
/** The lead table: the search filter, the status badge and the derived id and
    avatar texts. */
module LeadsList {
  import opened Text
  import opened Seqs

  datatype Lead = Lead(id: string, clientName: string, clientPhone: string, status: string, createdAt: int)

  /** The search: the name ignoring case, or the raw phone. */
  predicate Shown(lead: Lead, filter: string)
  {
    Contains(Lower(lead.clientName), Lower(filter)) || Contains(lead.clientPhone, filter)
  }

  function FilterLeads(leads: seq<Lead>, filter: string): (r: seq<Lead>)
    ensures IsSubsequence(r, leads)
    ensures forall l :: l in r <==> l in leads && Shown(l, filter)
    ensures |r| == Count(leads, (l: Lead) => Shown(l, filter))
  {
    FilterIsSubsequence(leads, l => Shown(l, filter));
    FilterLengthIsCount(leads, l => Shown(l, filter));
    Filter(leads, l => Shown(l, filter))
  }

  /** An empty search shows every lead, in order. */
  lemma EmptyFilterShowsAll(leads: seq<Lead>)
    ensures FilterLeads(leads, "") == leads
  {
    forall i | 0 <= i < |leads| ensures Shown(leads[i], "") {
      ContainsEmpty(Lower(leads[i].clientName));
    }
    FilterAll(leads, l => Shown(l, ""));
  }

  /** A substring of a string stays one after lower-casing both. */
  lemma {:induction false} LowerKeepsContains(s: string, sub: string)
    requires Contains(s, sub)
    ensures Contains(Lower(s), Lower(sub))
  {
    if sub <= s {
      assert Lower(sub) == Lower(s)[..|sub|];
    } else {
      LowerKeepsContains(s[1..], sub);
      assert Lower(s[1..]) == Lower(s)[1..];
    }
  }

  lemma LowerOfUpper(s: string)
    ensures Lower(Upper(s)) == Lower(s)
  {
  }

  lemma LowerOfLower(s: string)
    ensures Lower(Lower(s)) == Lower(s)
  {
  }

  /** A name containing some spelling of the filter that differs from it only
      in letter case shows the lead, whether the filter is typed as is, in
      upper case or in lower case. */
  lemma NameMatchIgnoresCase(lead: Lead, spelling: string, filter: string)
    requires Contains(lead.clientName, spelling)
    requires Lower(spelling) == Lower(filter)
    ensures Shown(lead, filter)
    ensures Shown(lead, Upper(filter))
    ensures Shown(lead, Lower(filter))
  {
    LowerKeepsContains(lead.clientName, spelling);
    LowerOfUpper(filter);
    LowerOfLower(filter);
  }

  const KnownStatuses: set<string> := {"waiting", "active", "closed", "completed", "sold", "cancelled"}

  /** The badge text; an unknown status shows itself. */
  function StatusBadge(status: string): (text: string)
    ensures status !in KnownStatuses ==> text == status
    ensures status == "waiting" ==> text == "Aguardando"
    ensures status == "active" ==> text == "Em Atendimento"
    ensures status == "closed" ==> text == "Encerrado"
    ensures status == "completed" ==> text == "Finalizado"
    ensures status == "sold" ==> text == "Venda Realizada"
    ensures status == "cancelled" ==> text == "Cancelado"
  {
    match status
    case "waiting" => "Aguardando"
    case "active" => "Em Atendimento"
    case "closed" => "Encerrado"
    case "completed" => "Finalizado"
    case "sold" => "Venda Realizada"
    case "cancelled" => "Cancelado"
    case _ => status
  }

  /** `id.slice(0, 8)`. */
  function ShortId(id: string): (r: string)
    ensures r <= id
    ensures |r| == if |id| < 8 then |id| else 8
  {
    if |id| < 8 then id else id[..8]
  }

  /** `name.charAt(0).toUpperCase()`. */
  function Avatar(name: string): (r: string)
    ensures |name| == 0 ==> r == ""
    ensures |name| > 0 ==> r == [UpperChar(name[0])]
  {
    Upper(if |name| == 0 then "" else name[..1])
  }
}

=== FILE: scenarios.dfy ===
/** Properties that span several parts of the system: an uploaded file's
    address as the chat renders it, and a conversation's life from creation to
    the attendant's first reply. */
module Scenarios {
  import opened Wrappers
  import opened Wire
  import UploadApi
  import ChatInterface
  import SocketRelay
  import AttendantPanel
  import ConversationsApi

  /** The address the upload route hands out is served by the file API once
      the chat rewrites it, for any upload type that does not begin with `/`. */
  lemma UploadedFileIsServed(kind: string, storedName: string)
    requires |kind| > 0 && kind[0] != '/'
    ensures ChatInterface.MediaSrc(UploadApi.PublicUrl(kind, storedName))
              == "/api/uploads/" + kind + "/" + storedName
  {
    var url := UploadApi.PublicUrl(kind, storedName);
    var rest := kind + "/" + storedName;
    assert url == "/uploads/" + rest;
    assert ChatInterface.StripPrefix(url, "/uploads/") == rest;
    assert rest[0] == kind[0];
    assert !("/" <= rest);
  }

  /** The socket copy of a message sent at T arrives two seconds later with
      its final id and replaces the pending copy: one entry remains. */
  lemma ReconcileExample(t: int)
    ensures var pending := Message("temp-1000", "Oi", "text", None, None, None, "client", t);
            var server := Message("abc123", "Oi", "text", None, None, None, "client", t + 2000);
            ChatInterface.HandleNewMessage([pending], server) == [server]
  {
    var pending := Message("temp-1000", "Oi", "text", None, None, None, "client", t);
    var server := Message("abc123", "Oi", "text", None, None, None, "client", t + 2000);
    assert ChatInterface.IsTemp(pending.id);
    assert server.id[0] != ChatInterface.TempPrefix[0];
    assert !ChatInterface.HasId([pending], server.id);
    assert ChatInterface.PendingFor(pending, server);
  }

  // A customer starts a conversation while an attendant is connected, the
  // attendant takes it over and replies. The three lemmas below follow it.

  /** The two connections: the customer's on its conversation, the attendant's. */
  function Connected(client: ConnId, attendant: ConnId, conversationId: string, attendantId: string): SocketRelay.Relay
  {
    SocketRelay.Connect(SocketRelay.Connect(SocketRelay.Relay(map[]), client,
                          SocketRelay.Handshake("client", Some(conversationId), None)),
                        attendant, SocketRelay.Handshake("attendant", None, Some(attendantId)))
  }

  function Start(store: ConversationsApi.Store, name: string, phone: string, conversationId: string, now: int): ConversationsApi.Created
  {
    ConversationsApi.Post(store, Some(ConversationsApi.CreateBody(Some(name), Some(phone))),
                          conversationId, now, false, Some(ConversationsApi.Server(false)))
  }

  /** Creation: the conversation is waiting, and its announcement reaches the
      attendant and not the customer. */
  lemma NewConversationReachesAttendant(store: ConversationsApi.Store, name: string, phone: string,
                                        conversationId: string, now: int,
                                        client: ConnId, attendant: ConnId, attendantId: string)
    requires name != "" && phone != "" && attendantId != "" && conversationId != ""
    requires client != attendant
    ensures var created := Start(store, name, phone, conversationId, now);
            var relay := Connected(client, attendant, conversationId, attendantId);
            && created.response.status == 200
            && created.response.body.conversation.status == "waiting"
            && SocketRelay.Inbox(relay, attendant, created.emissions)
                 == [NewConversation(ConversationsApi.Announcement(created.response.body.conversation))]
            && SocketRelay.Inbox(relay, client, created.emissions) == []
  {
    var created := Start(store, name, phone, conversationId, now);
    var relay := Connected(client, attendant, conversationId, attendantId);
    assert relay.sessions[client].rooms == {ConversationRoom(conversationId)};
    assert relay.sessions[attendant].rooms == {AttendantRoom(attendantId), AttendantsRoom};
    RoomNamesDistinct(conversationId, attendantId);
    assert created.emissions[1..] == [];
  }

  /** Selection: the newly listed conversation is waiting, so selecting it asks
      for assignment; assignment makes it active, and the join puts the
      attendant in the customer's room. */
  lemma SelectionTakesOver(c: ConversationsApi.ConversationRecord, name: string,
                           client: ConnId, attendant: ConnId, attendantId: string)
    requires c.status == "waiting" && c.id != "" && attendantId != ""
    requires client != attendant
    ensures var list := AttendantPanel.OnNewConversation([], ConversationsApi.Announcement(c));
            var selection := AttendantPanel.Select(list, c.id, name);
            var relay := SocketRelay.Dispatch(Connected(client, attendant, c.id, attendantId), attendant, selection.emit).relay;
            && selection.requestAssign
            && AttendantPanel.ApplyAssign(list, c.id, AttendantPanel.Assigned(None))[0].status == "active"
            && attendant in SocketRelay.Members(relay, ConversationRoom(c.id))
            && client in SocketRelay.Members(relay, ConversationRoom(c.id))
  {
    var list := AttendantPanel.OnNewConversation([], ConversationsApi.Announcement(c));
    assert list == [ConversationsApi.Announcement(c)];
    var relay0 := Connected(client, attendant, c.id, attendantId);
    assert relay0.sessions[client].rooms == {ConversationRoom(c.id)};
  }

  /** The reply: once both are in the room, the attendant's message reaches the
      customer as a message and the attendant as the message and then the
      summary; applying the summary keeps the conversation active and shows
      the reply. */
  lemma ReplyReachesBoth(relay: SocketRelay.Relay, client: ConnId, attendant: ConnId, conversationId: string,
                         reply: string, messageId: string, at: int, list: seq<Summary>)
    requires client in SocketRelay.Members(relay, ConversationRoom(conversationId))
    requires client !in SocketRelay.Members(relay, AttendantsRoom)
    requires attendant in SocketRelay.Members(relay, ConversationRoom(conversationId))
    requires attendant in SocketRelay.Members(relay, AttendantsRoom)
    requires |list| > 0 && list[0].id == conversationId && list[0].status == "active"
    ensures var sent := SocketRelay.OnMessage(SocketRelay.MessageData(conversationId, reply, "attendant",
                                                None, None, None, None), SocketRelay.Persisted(messageId, at), at);
            var summary := ConversationUpdated(conversationId, reply, at);
            var after := AttendantPanel.OnConversationUpdated(list, AttendantPanel.PatchOf(summary));
            && sent.stored.Some? && sent.stored.value.content == reply
            && SocketRelay.Inbox(relay, client, sent.emissions) == [MessagePushed(sent.stored.value)]
            && SocketRelay.Inbox(relay, attendant, sent.emissions) == [MessagePushed(sent.stored.value), summary]
            && after[0].status == "active" && after[0].lastMessage == Some(reply)
  {
    var d := SocketRelay.MessageData(conversationId, reply, "attendant", None, None, None, None);
    SocketRelay.MessageFanOut(relay, client, d, SocketRelay.Persisted(messageId, at), at);
    SocketRelay.MessageFanOut(relay, attendant, d, SocketRelay.Persisted(messageId, at), at);
  }

  /** The customer never joins the attendants room, so the reply scenario's
      preconditions hold after the take-over. */
  lemma TakeOverMeetsReply(client: ConnId, attendant: ConnId, conversationId: string, attendantId: string)
    requires conversationId != "" && attendantId != "" && client != attendant
    ensures var relay := SocketRelay.Dispatch(Connected(client, attendant, conversationId, attendantId),
                                              attendant, JoinConversation(conversationId)).relay;
            && client !in SocketRelay.Members(relay, AttendantsRoom)
            && attendant in SocketRelay.Members(relay, AttendantsRoom)
  {
    var relay0 := Connected(client, attendant, conversationId, attendantId);
    assert relay0.sessions[client].rooms == {ConversationRoom(conversationId)};
    RoomNamesDistinct(conversationId, attendantId);
  }
}

=== FILE: seqs.dfy ===
/** Order-preserving selection from sequences and the facts the list screens rely on. */
module Seqs {

  /** `xs.filter(p)`: the elements of `xs` satisfying `p`, in their original order. */
  function Filter<T>(xs: seq<T>, p: T -> bool): (r: seq<T>)
    ensures |r| <= |xs|
    ensures forall i :: 0 <= i < |r| ==> p(r[i]) && r[i] in xs
    ensures forall x :: x in xs && p(x) ==> x in r
  {
    if |xs| == 0 then []
    else if p(xs[0]) then [xs[0]] + Filter(xs[1..], p)
    else Filter(xs[1..], p)
  }

  /** `sub` can be obtained from `xs` by deleting elements, keeping the order. */
  predicate IsSubsequence<T(==)>(sub: seq<T>, xs: seq<T>)
  {
    if |sub| == 0 then true
    else if |xs| == 0 then false
    else if sub[0] == xs[0] then IsSubsequence(sub[1..], xs[1..])
    else IsSubsequence(sub, xs[1..])
  }

  lemma {:induction false} FilterIsSubsequence<T>(xs: seq<T>, p: T -> bool)
    ensures IsSubsequence(Filter(xs, p), xs)
  {
    if |xs| == 0 {
    } else {
      FilterIsSubsequence(xs[1..], p);
      if !p(xs[0]) {
        var f := Filter(xs[1..], p);
        if |f| > 0 && f[0] == xs[0] {
          assert p(f[0]);
        }
        SkipHead(f, xs);
      }
    }
  }

  /** Deleting the head of the longer sequence keeps a subsequence relation
      that did not use that head. */
  lemma {:induction false} SkipHead<T>(sub: seq<T>, xs: seq<T>)
    requires |xs| > 0
    requires IsSubsequence(sub, xs[1..])
    ensures IsSubsequence(sub, xs)
  {
    if |sub| > 0 && sub[0] == xs[0] {
      SubsequenceTail(sub, xs[1..]);
    }
  }

  /** Dropping the first element of a subsequence keeps it a subsequence. */
  lemma {:induction false} SubsequenceTail<T>(sub: seq<T>, xs: seq<T>)
    requires |sub| > 0
    requires IsSubsequence(sub, xs)
    ensures IsSubsequence(sub[1..], xs)
  {
    assert |xs| > 0;
    if sub[0] == xs[0] {
      SkipHead(sub[1..], xs);
    } else {
      SubsequenceTail(sub, xs[1..]);
      SkipHead(sub[1..], xs);
    }
  }

  /** Filtering with a predicate every element satisfies changes nothing. */
  lemma {:induction false} FilterAll<T>(xs: seq<T>, p: T -> bool)
    requires forall i :: 0 <= i < |xs| ==> p(xs[i])
    ensures Filter(xs, p) == xs
  {
    if |xs| > 0 {
      FilterAll(xs[1..], p);
    }
  }

  /** When only the head fails `p`, filtering leaves the tail. */
  lemma FilterDropsHead<T>(xs: seq<T>, p: T -> bool)
    requires |xs| > 0 && !p(xs[0])
    requires forall j :: 0 < j < |xs| ==> p(xs[j])
    ensures Filter(xs, p) == xs[1..]
  {
    var tail := xs[1..];
    forall j | 0 <= j < |tail| ensures p(tail[j]) {
      assert tail[j] == xs[j + 1];
    }
    FilterAll(tail, p);
  }

  /** When element k is the only one failing `p`, filtering removes it alone. */
  lemma {:induction false} FilterDropsOnly<T>(xs: seq<T>, p: T -> bool, k: nat)
    requires k < |xs| && !p(xs[k])
    requires forall j :: 0 <= j < |xs| && j != k ==> p(xs[j])
    ensures Filter(xs, p) == xs[..k] + xs[k + 1..]
  {
    if k == 0 {
      FilterDropsHead(xs, p);
    } else {
      var tail := xs[1..];
      forall j | 0 <= j < |tail| && j != k - 1 ensures p(tail[j]) {
        assert tail[j] == xs[j + 1];
      }
      FilterDropsOnly(tail, p, k - 1);
      assert Filter(xs, p) == [xs[0]] + Filter(tail, p);
      DropSplit(xs, k);
    }
  }

  /** Filtering out an element that fails `p` shortens the sequence. */
  lemma {:induction false} FilterDropsSome<T>(xs: seq<T>, p: T -> bool, k: nat)
    requires k < |xs| && !p(xs[k])
    ensures |Filter(xs, p)| < |xs|
  {
    if k > 0 {
      assert xs[1..][k - 1] == xs[k];
      FilterDropsSome(xs[1..], p, k - 1);
    }
  }

  /** Filtering with a predicate no element satisfies yields nothing. */
  lemma {:induction false} FilterNone<T>(xs: seq<T>, p: T -> bool)
    requires forall i :: 0 <= i < |xs| ==> !p(xs[i])
    ensures Filter(xs, p) == []
  {
    if |xs| > 0 {
      FilterNone(xs[1..], p);
    }
  }

  /** No element occurs twice. */
  predicate NoDuplicates<T(==)>(xs: seq<T>)
  {
    forall i, j :: 0 <= i < j < |xs| ==> xs[i] != xs[j]
  }

  /** Number of elements satisfying `p`. */
  function Count<T>(xs: seq<T>, p: T -> bool): (n: nat)
    ensures n <= |xs|
  {
    if |xs| == 0 then 0 else (if p(xs[0]) then 1 else 0) + Count(xs[1..], p)
  }

  lemma {:induction false} FilterLengthIsCount<T>(xs: seq<T>, p: T -> bool)
    ensures |Filter(xs, p)| == Count(xs, p)
  {
    if |xs| > 0 {
      FilterLengthIsCount(xs[1..], p);
    }
  }

  /** If `p` implies `q` elementwise, `p` selects no more elements than `q`. */
  lemma {:induction false} CountMonotone<T>(xs: seq<T>, p: T -> bool, q: T -> bool)
    requires forall i :: 0 <= i < |xs| ==> p(xs[i]) ==> q(xs[i])
    ensures Count(xs, p) <= Count(xs, q)
  {
    if |xs| > 0 {
      CountMonotone(xs[1..], p, q);
    }
  }

  /** Dropping element k > 0 is keeping the head and dropping element k - 1 of the tail. */
  lemma DropSplit<T>(xs: seq<T>, k: nat)
    requires 0 < k < |xs|
    ensures xs[..k] + xs[k + 1..] == [xs[0]] + (xs[1..][..k - 1] + xs[1..][k..])
  {
    assert xs[..k] == [xs[0]] + xs[1..][..k - 1];
    assert xs[k + 1..] == xs[1..][k..];
  }
}

=== FILE: socket_relay.dfy ===
/** The connection handler of the realtime relay: which rooms each connection
    holds, how room membership changes, and which connections receive which
    event. */
module SocketRelay {
  import opened Wrappers
  import opened Wire

  /** The handshake's `type` query parameter, as the handlers test it. */
  datatype Role = ClientRole | AttendantRole | OtherRole

  /** The handshake query of a new connection. */
  datatype Handshake = Handshake(kind: string, conversationId: Option<string>, attendantId: Option<string>)

  /** One live connection: its role and the rooms it has joined. */
  datatype Session = Session(role: Role, rooms: set<string>)

  /** Every live connection of the relay. */
  datatype Relay = Relay(sessions: map<ConnId, Session>)

  /** A relay state after one inbound event, with what it emitted. */
  datatype Step = Step(relay: Relay, emissions: seq<Emission>)

  /** What persisting a `message` event produced: the create threw, the
      conversation update threw after the create, or both succeeded (the store
      chose the id and the creation instant). */
  datatype Persist =
    | CreateFails
    | UpdateFails(storedId: string, storedAt: int)
    | Persisted(id: string, createdAt: int)

  /** The payload of an inbound `message` event. */
  datatype MessageData = MessageData(
    conversationId: string,
    content: string,
    sender: string,
    kind: Option<string>,
    fileUrl: Option<string>,
    fileName: Option<string>,
    fileSize: Option<int>)

  /** The stored message (if the create succeeded) and the emissions. */
  datatype MessageOutcome = MessageOutcome(stored: Option<Message>, emissions: seq<Emission>)

  function RoleOf(kind: string): Role
  {
    if kind == "client" then ClientRole
    else if kind == "attendant" then AttendantRole
    else OtherRole
  }

  /** The rooms a connection joins while handshaking. */
  function HandshakeRooms(h: Handshake): (rooms: set<string>)
    ensures RoleOf(h.kind) == ClientRole && Truthy(h.conversationId) ==>
              rooms == {ConversationRoom(h.conversationId.value)}
    ensures RoleOf(h.kind) == AttendantRole && Truthy(h.attendantId) ==>
              rooms == {AttendantRoom(h.attendantId.value), AttendantsRoom}
    ensures (!(RoleOf(h.kind) == ClientRole && Truthy(h.conversationId))
             && !(RoleOf(h.kind) == AttendantRole && Truthy(h.attendantId))) ==> rooms == {}
  {
    (if h.kind == "client" && Truthy(h.conversationId) then {ConversationRoom(h.conversationId.value)} else {})
    + (if h.kind == "attendant" && Truthy(h.attendantId) then {AttendantRoom(h.attendantId.value), AttendantsRoom} else {})
  }

  /** A new connection registers with its handshake rooms; nobody else changes. */
  function Connect(r: Relay, id: ConnId, h: Handshake): (r': Relay)
    ensures id in r'.sessions && r'.sessions[id].role == RoleOf(h.kind)
    ensures r'.sessions[id].rooms == HandshakeRooms(h)
    ensures r'.sessions.Keys == r.sessions.Keys + {id}
    ensures forall other :: other in r.sessions && other != id ==> r'.sessions[other] == r.sessions[other]
  {
    Relay(r.sessions[id := Session(RoleOf(h.kind), HandshakeRooms(h))])
  }

  /** Replaces the rooms of one registered connection. */
  function WithRooms(r: Relay, id: ConnId, rooms: set<string>): Relay
    requires id in r.sessions
  {
    Relay(r.sessions[id := r.sessions[id].(rooms := rooms)])
  }

  /** `rejoin-conversation`: only a client connection joins the room. */
  function Rejoin(r: Relay, id: ConnId, conversationId: string): (r': Relay)
    ensures id in r.sessions && r.sessions[id].role == ClientRole ==>
              r' == WithRooms(r, id, r.sessions[id].rooms + {ConversationRoom(conversationId)})
    ensures !(id in r.sessions && r.sessions[id].role == ClientRole) ==> r' == r
  {
    if id in r.sessions && r.sessions[id].role == ClientRole then
      WithRooms(r, id, r.sessions[id].rooms + {ConversationRoom(conversationId)})
    else r
  }

  /** `join-conversation`: only an attendant connection joins the room. */
  function Join(r: Relay, id: ConnId, conversationId: string): (r': Relay)
    ensures id in r.sessions && r.sessions[id].role == AttendantRole ==>
              r' == WithRooms(r, id, r.sessions[id].rooms + {ConversationRoom(conversationId)})
    ensures !(id in r.sessions && r.sessions[id].role == AttendantRole) ==> r' == r
  {
    if id in r.sessions && r.sessions[id].role == AttendantRole then
      WithRooms(r, id, r.sessions[id].rooms + {ConversationRoom(conversationId)})
    else r
  }

  /** `leave-conversation`: any connection leaves the room. */
  function Leave(r: Relay, id: ConnId, conversationId: string): (r': Relay)
    ensures r'.sessions.Keys == r.sessions.Keys
    ensures id in r.sessions ==>
              r'.sessions[id] == Session(r.sessions[id].role, r.sessions[id].rooms - {ConversationRoom(conversationId)})
    ensures forall other :: other in r.sessions && other != id ==> r'.sessions[other] == r.sessions[other]
  {
    if id in r.sessions then
      WithRooms(r, id, r.sessions[id].rooms - {ConversationRoom(conversationId)})
    else r
  }

  /** The connections currently in `room`. */
  function Members(r: Relay, room: string): (ids: set<ConnId>)
    ensures forall id :: id in ids <==> id in r.sessions && room in r.sessions[id].rooms
  {
    set id | id in r.sessions && room in r.sessions[id].rooms
  }

  /** The connections one emission reaches. */
  function Receivers(r: Relay, e: Emission): (ids: set<ConnId>)
    ensures forall id :: id in ids <==>
              id in r.sessions && e.room in r.sessions[id].rooms && e.except != Some(id)
  {
    Members(r, e.room) - (if e.except.Some? then {e.except.value} else {})
  }

  /** The events connection `id` receives from a sequence of emissions, in
      emission order; each emission reaches it at most once. */
  function Inbox(r: Relay, id: ConnId, es: seq<Emission>): (inbox: seq<ServerEvent>)
    ensures |inbox| <= |es|
  {
    if |es| == 0 then []
    else (if id in Receivers(r, es[0]) then [es[0].event] else []) + Inbox(r, id, es[1..])
  }

  /** `typing` and `stop-typing`: relayed to the rest of the conversation room. */
  function TypingEmission(id: ConnId, conversationId: string, isTyping: bool): Emission
  {
    Emission(ConversationRoom(conversationId), Some(id), TypingChanged(isTyping))
  }

  /** Handles one inbound non-message event of connection `id`. */
  function Dispatch(r: Relay, id: ConnId, ev: ClientEvent): (s: Step)
    ensures ev.Typing? || ev.StopTyping? ==> s.relay == r
    ensures !(ev.Typing? || ev.StopTyping?) ==> s.emissions == []
    ensures ev.Typing? || ev.StopTyping? ==>
              s.emissions == [Emission(ConversationRoom(ev.conversationId), Some(id), TypingChanged(ev.Typing?))]
    ensures ev.Disconnect? ==> s.relay.sessions.Keys == r.sessions.Keys - {id}
    ensures ev.Disconnect? ==> forall other :: other in s.relay.sessions ==> s.relay.sessions[other] == r.sessions[other]
    ensures !ev.Disconnect? ==> s.relay.sessions.Keys == r.sessions.Keys
  {
    match ev
    case RejoinConversation(c) => Step(Rejoin(r, id, c), [])
    case JoinConversation(c) => Step(Join(r, id, c), [])
    case LeaveConversation(c) => Step(Leave(r, id, c), [])
    case Typing(c) => Step(r, [TypingEmission(id, c, true)])
    case StopTyping(c) => Step(r, [TypingEmission(id, c, false)])
    case Disconnect => Step(Relay(r.sessions - {id}), [])
  }

  /** The message row the `message` handler asks the store to create. */
  function StoredMessage(d: MessageData, id: string, createdAt: int): (m: Message)
    ensures m.kind == (if Truthy(d.kind) then d.kind.value else "text")
    ensures m.fileUrl.Some? <==> Truthy(d.fileUrl)
    ensures Truthy(d.fileUrl) ==> m.fileUrl == d.fileUrl
    ensures m.fileName.Some? <==> Truthy(d.fileName)
    ensures Truthy(d.fileName) ==> m.fileName == d.fileName
    ensures m.fileSize.Some? <==> d.fileSize.Some? && d.fileSize.value != 0
    ensures d.fileSize.Some? && d.fileSize.value != 0 ==> m.fileSize == d.fileSize
    ensures m.content == d.content && m.sender == d.sender
    ensures m.id == id && m.createdAt == createdAt
  {
    Message(id, d.content, OrNull(d.kind).GetOr("text"), OrNull(d.fileUrl), OrNull(d.fileName),
            NonZeroOrNull(d.fileSize), d.sender, createdAt)
  }

  /** `message`: persist, touch the conversation, then broadcast the message to
      its room and a summary to the attendants; any store failure stops it
      before anything is broadcast. `now` is the instant of the summary. */
  function OnMessage(d: MessageData, db: Persist, now: int): (o: MessageOutcome)
    ensures o.emissions != [] <==> db.Persisted?
    ensures o.stored.Some? <==> !db.CreateFails?
  {
    match db
    case CreateFails => MessageOutcome(None, [])
    case UpdateFails(sid, at) => MessageOutcome(Some(StoredMessage(d, sid, at)), [])
    case Persisted(mid, at) =>
      var m := StoredMessage(d, mid, at);
      MessageOutcome(Some(m), [
        Emission(ConversationRoom(d.conversationId), None, MessagePushed(m)),
        Emission(AttendantsRoom, None, ConversationUpdated(d.conversationId, d.content, now))
      ])
  }

  /** `getIO`: the instance kept across hot reloads first, then the local one. */
  function GetIO<S>(global: Option<S>, local: Option<S>): (io: Option<S>)
    ensures io.Some? <==> global.Some? || local.Some?
    ensures global.Some? ==> io == global
    ensures global.None? ==> io == local
  {
    if global.Some? then global else if local.Some? then local else None
  }

  // ---------------------------------------------------------------------
  // Properties of the membership rules

  /** The handshake: a client with a conversation id holds exactly that
      conversation's room; an attendant with an id holds exactly its own room
      and the shared one; a handshake missing its id holds none. */
  lemma HandshakeJoins(r: Relay, id: ConnId, kind: string, c: string, a: string)
    requires c != "" && a != ""
    ensures Connect(r, id, Handshake("client", Some(c), None)).sessions[id].rooms == {ConversationRoom(c)}
    ensures Connect(r, id, Handshake("attendant", None, Some(a))).sessions[id].rooms == {AttendantRoom(a), AttendantsRoom}
    ensures Connect(r, id, Handshake(kind, None, None)).sessions[id].rooms == {}
    ensures Connect(r, id, Handshake(kind, Some(""), Some(""))).sessions[id].rooms == {}
    ensures Connect(r, id, Handshake("attendant", Some(c), None)).sessions[id].rooms == {}
  {
  }

  /** Joining is idempotent: rooms are a set. */
  lemma JoinIdempotent(r: Relay, id: ConnId, c: string)
    ensures Join(Join(r, id, c), id, c) == Join(r, id, c)
    ensures Rejoin(Rejoin(r, id, c), id, c) == Rejoin(r, id, c)
  {
    if id in r.sessions {
      var s := r.sessions[id];
      var room := ConversationRoom(c);
      assert s.rooms + {room} + {room} == s.rooms + {room};
    }
  }

  /** Leaving a room the connection does not hold changes nothing. */
  lemma LeaveNotHeldIsNoOp(r: Relay, id: ConnId, c: string)
    requires id in r.sessions ==> ConversationRoom(c) !in r.sessions[id].rooms
    ensures Leave(r, id, c) == r
  {
    if id in r.sessions {
      assert r.sessions[id].rooms - {ConversationRoom(c)} == r.sessions[id].rooms;
      assert r.sessions[id := r.sessions[id]] == r.sessions;
    }
  }

  /** Leaving and then joining again restores an attendant's membership when it
      held the room, and leaving undoes a join of a room not held before. */
  lemma LeaveUndoesJoin(r: Relay, id: ConnId, c: string)
    requires id in r.sessions && r.sessions[id].role == AttendantRole
    requires ConversationRoom(c) !in r.sessions[id].rooms
    ensures Leave(Join(r, id, c), id, c) == r
  {
    var s := r.sessions[id];
    assert s.rooms + {ConversationRoom(c)} - {ConversationRoom(c)} == s.rooms;
    assert r.sessions[id := s] == r.sessions;
  }

  /** `typing` reaches exactly the other members of the conversation room,
      each once, with `isTyping` set; `stop-typing` likewise with it cleared. */
  lemma TypingReachesOthers(r: Relay, sender: ConnId, other: ConnId, c: string, isTyping: bool)
    ensures var s := Dispatch(r, sender, if isTyping then Typing(c) else StopTyping(c));
            Inbox(r, other, s.emissions) ==
              if other != sender && other in Members(r, ConversationRoom(c)) then [TypingChanged(isTyping)] else []
  {
    var s := Dispatch(r, sender, if isTyping then Typing(c) else StopTyping(c));
    assert s.emissions == [TypingEmission(sender, c, isTyping)];
    assert s.emissions[1..] == [];
  }

  /** A stored message reaches a connection as `message` when it is in the
      conversation room, then as `conversation-updated` carrying the submitted
      content when it is in the attendants room, in that order; a failed store
      reaches nobody. */
  lemma MessageFanOut(r: Relay, id: ConnId, d: MessageData, db: Persist, now: int)
    ensures var o := OnMessage(d, db, now);
            var inConv := id in Members(r, ConversationRoom(d.conversationId));
            var inAtt := id in Members(r, AttendantsRoom);
            Inbox(r, id, o.emissions) ==
              if !db.Persisted? then []
              else (if inConv then [MessagePushed(o.stored.value)] else [])
                   + (if inAtt then [ConversationUpdated(d.conversationId, d.content, now)] else [])
  {
    var o := OnMessage(d, db, now);
    if db.Persisted? {
      assert o.emissions[1..][1..] == [];
    }
  }

  // ---------------------------------------------------------------------
  // The room-family invariant

  /** Clients hold only conversation rooms, connections of any other type hold
      none, and attendants hold conversation rooms, attendant rooms and the
      shared attendants room. */
  predicate RoomsFitRole(s: Session)
  {
    match s.role
    case ClientRole => forall room :: room in s.rooms ==> IsConversationRoom(room)
    case OtherRole => s.rooms == {}
    case AttendantRole => forall room :: room in s.rooms ==>
        IsConversationRoom(room) || IsAttendantRoom(room) || room == AttendantsRoom
  }

  predicate Valid(r: Relay)
  {
    forall id :: id in r.sessions ==> RoomsFitRole(r.sessions[id])
  }

  lemma ConversationRoomFits(c: string)
    ensures IsConversationRoom(ConversationRoom(c))
  {
    RoomNamesDistinct(c, c);
  }

  /** Every handshake and every inbound event keeps the room families apart. */
  lemma ConnectKeepsValid(r: Relay, id: ConnId, h: Handshake)
    requires Valid(r)
    ensures Valid(Connect(r, id, h))
  {
    if h.conversationId.Some? {
      ConversationRoomFits(h.conversationId.value);
    }
    if h.attendantId.Some? {
      assert IsAttendantRoom(AttendantRoom(h.attendantId.value));
    }
  }

  lemma DispatchKeepsValid(r: Relay, id: ConnId, ev: ClientEvent)
    requires Valid(r)
    ensures Valid(Dispatch(r, id, ev).relay)
  {
    match ev
    case RejoinConversation(c) => ConversationRoomFits(c);
    case JoinConversation(c) => ConversationRoomFits(c);
    case LeaveConversation(c) =>
    case Typing(c) =>
    case StopTyping(c) =>
    case Disconnect =>
  }

  /** In a valid relay no client connection is in the attendants room, so list
      notifications (`new-conversation`, `conversation-updated`) never reach a
      customer. */
  lemma ClientsNeverHearAttendantNotices(r: Relay, id: ConnId)
    requires Valid(r)
    requires id in r.sessions && r.sessions[id].role != AttendantRole
    ensures id !in Members(r, AttendantsRoom)
  {
    RoomNamesDistinct("", "");
  }
}

=== FILE: stats_api.dfy ===
/** The statistics route: lead totals since the start of the day and of the
    month, seven consecutive day windows, and the per-status tally. */
module StatsApi {
  import opened Seqs
  import opened ConversationsApi

  const DayMs := 86_400_000

  /** `subDays(t, n)` on instants in milliseconds. */
  function SubDays(t: int, n: int): int
  {
    t - n * DayMs
  }

  function CreatedSince(t: int): ConversationRecord -> bool
  {
    (c: ConversationRecord) => c.createdAt >= t
  }

  function CreatedIn(lo: int, hi: int): ConversationRecord -> bool
  {
    (c: ConversationRecord) => lo <= c.createdAt < hi
  }

  /** `count({ where: { createdAt: { gte: t } } })`. */
  function CountSince(cs: seq<ConversationRecord>, t: int): nat
  {
    Count(cs, CreatedSince(t))
  }

  /** `count({ where: { createdAt: { gte: lo, lt: hi } } })`. */
  function CountIn(cs: seq<ConversationRecord>, lo: int, hi: int): nat
  {
    Count(cs, CreatedIn(lo, hi))
  }

  datatype DayCount = DayCount(start: int, count: nat)

  /** Entry k of the chart: the day `6 - k` days before today. */
  function Window(cs: seq<ConversationRecord>, today: int, k: int): DayCount
  {
    DayCount(SubDays(today, 6 - k), CountIn(cs, SubDays(today, 6 - k), SubDays(today, 5 - k)))
  }

  /** The chart loop, from six days ago up to today. */
  method Last7Days(cs: seq<ConversationRecord>, today: int) returns (days: seq<DayCount>)
    ensures |days| == 7
    ensures forall k :: 0 <= k < 7 ==> days[k].start == today - (6 - k) * DayMs
    ensures forall k :: 0 <= k < 7 ==>
              days[k].count == CountIn(cs, days[k].start, days[k].start + DayMs)
  {
    days := [];
    var i := 6;
    while i >= 0
      invariant -1 <= i <= 6
      invariant |days| == 6 - i
      invariant forall k :: 0 <= k < |days| ==> days[k] == Window(cs, today, k)
    {
      var date := SubDays(today, i);
      var nextDate := SubDays(today, i - 1);
      var count := CountIn(cs, date, nextDate);
      days := days + [DayCount(date, count)];
      i := i - 1;
    }
  }

  /** Adjacent windows add up: counting [lo, mid) and [mid, hi) counts [lo, hi). */
  lemma {:induction false} CountInSplits(cs: seq<ConversationRecord>, lo: int, mid: int, hi: int)
    requires lo <= mid <= hi
    ensures CountIn(cs, lo, mid) + CountIn(cs, mid, hi) == CountIn(cs, lo, hi)
  {
    if |cs| > 0 {
      CountInSplits(cs[1..], lo, mid, hi);
    }
  }

  /** The seven windows tile the week ending tomorrow at midnight, so their counts
      add up to that week's count. */
  lemma WeekTotal(cs: seq<ConversationRecord>, today: int)
    ensures Window(cs, today, 0).count + Window(cs, today, 1).count + Window(cs, today, 2).count
            + Window(cs, today, 3).count + Window(cs, today, 4).count + Window(cs, today, 5).count
            + Window(cs, today, 6).count
            == CountIn(cs, SubDays(today, 6), SubDays(today, -1))
  {
    CountInSplits(cs, SubDays(today, 6), SubDays(today, 5), SubDays(today, -1));
    CountInSplits(cs, SubDays(today, 5), SubDays(today, 4), SubDays(today, -1));
    CountInSplits(cs, SubDays(today, 4), SubDays(today, 3), SubDays(today, -1));
    CountInSplits(cs, SubDays(today, 3), SubDays(today, 2), SubDays(today, -1));
    CountInSplits(cs, SubDays(today, 2), SubDays(today, 1), SubDays(today, -1));
    CountInSplits(cs, SubDays(today, 1), SubDays(today, 0), SubDays(today, -1));
  }

  /** Today's leads are among the month's, which are among all leads. */
  lemma TotalsOrdered(cs: seq<ConversationRecord>, today: int, monthStart: int)
    requires monthStart <= today
    ensures CountSince(cs, today) <= CountSince(cs, monthStart) <= |cs|
  {
    CountMonotone(cs, CreatedSince(today), CreatedSince(monthStart));
  }

  // ---------------------------------------------------------------------
  // Per-status tally

  /** Number of conversations with `status`. */
  function CountStatus(cs: seq<ConversationRecord>, status: string): nat
  {
    if |cs| == 0 then 0
    else CountStatus(cs[..|cs| - 1], status) + (if cs[|cs| - 1].status == status then 1 else 0)
  }

  /** A status no conversation has counts zero. */
  lemma {:induction false} AbsentCountsZero(cs: seq<ConversationRecord>, status: string)
    requires forall c :: c in cs ==> c.status != status
    ensures CountStatus(cs, status) == 0
  {
    if |cs| > 0 {
      assert cs[|cs| - 1] in cs;
      NoneInPrefix(cs, status);
      AbsentCountsZero(cs[..|cs| - 1], status);
    }
  }

  lemma NoneInPrefix(cs: seq<ConversationRecord>, status: string)
    requires |cs| > 0
    requires forall c :: c in cs ==> c.status != status
    ensures forall c :: c in cs[..|cs| - 1] ==> c.status != status
  {
    forall c | c in cs[..|cs| - 1] ensures c.status != status {
      var i :| 0 <= i < |cs| - 1 && cs[..|cs| - 1][i] == c;
      assert cs[i] == c;
    }
  }

  /** `groupBy({ by: ['status'] })` folded by `reduce` into one object: a key
      for every status that occurs, holding how many conversations have it. */
  function Tally(cs: seq<ConversationRecord>): (m: map<string, nat>)
    ensures forall s :: s in m <==> exists c :: c in cs && c.status == s
    ensures forall s :: s in m ==> m[s] == CountStatus(cs, s) > 0
  {
    if |cs| == 0 then map[]
    else
      var init := cs[..|cs| - 1];
      var last := cs[|cs| - 1];
      var before := Tally(init);
      var m := before[last.status := (if last.status in before then before[last.status] else 0) + 1];
      assert cs == init + [last];
      if last.status !in before then
        AbsentCountsZero(init, last.status);
        m
      else m
  }

  /** The distinct statuses that occur, in order of first occurrence. */
  function Statuses(cs: seq<ConversationRecord>): (ks: seq<string>)
    ensures NoDuplicates(ks)
    ensures forall s :: s in ks <==> exists c :: c in cs && c.status == s
  {
    if |cs| == 0 then []
    else
      var init := cs[..|cs| - 1];
      var last := cs[|cs| - 1];
      var d := Statuses(init);
      assert cs == init + [last];
      if last.status in d then d else d + [last.status]
  }

  /** The sum of a status map's values over the keys `ks`. */
  function SumOver(m: map<string, nat>, ks: seq<string>): nat
    requires forall k :: k in ks ==> k in m
  {
    if |ks| == 0 then 0 else m[ks[0]] + SumOver(m, ks[1..])
  }

  /** The sum of the per-status counts over the statuses `ks`. */
  function SumCounts(cs: seq<ConversationRecord>, ks: seq<string>): nat
  {
    if |ks| == 0 then 0 else CountStatus(cs, ks[0]) + SumCounts(cs, ks[1..])
  }

  /** How many times `s` occurs in `ks`. */
  function Occurrences(ks: seq<string>, s: string): nat
  {
    if |ks| == 0 then 0 else (if ks[0] == s then 1 else 0) + Occurrences(ks[1..], s)
  }

  /** A key listed once, in a list without repeats, occurs exactly once. */
  lemma {:induction false} OccursOnce(ks: seq<string>, s: string)
    requires NoDuplicates(ks) && s in ks
    ensures Occurrences(ks, s) == 1
  {
    if ks[0] == s {
      OccursNot(ks[1..], s);
    } else {
      OccursOnce(ks[1..], s);
    }
  }

  lemma {:induction false} OccursNot(ks: seq<string>, s: string)
    requires s !in ks
    ensures Occurrences(ks, s) == 0
  {
    if |ks| > 0 {
      OccursNot(ks[1..], s);
    }
  }

  /** One more conversation adds one to the sum for each listing of its status. */
  lemma {:induction false} SumCountsStep(init: seq<ConversationRecord>, last: ConversationRecord, ks: seq<string>)
    ensures SumCounts(init + [last], ks) == SumCounts(init, ks) + Occurrences(ks, last.status)
  {
    if |ks| > 0 {
      assert (init + [last])[..|init|] == init;
      SumCountsStep(init, last, ks[1..]);
    }
  }

  /** Over statuses listed once each and covering every conversation, the
      per-status counts add up to the number of conversations. */
  lemma {:induction false} SumCountsTotal(cs: seq<ConversationRecord>, ks: seq<string>)
    requires NoDuplicates(ks)
    requires forall i :: 0 <= i < |cs| ==> cs[i].status in ks
    ensures SumCounts(cs, ks) == |cs|
  {
    if |cs| == 0 {
      SumCountsEmpty(ks);
    } else {
      var init := cs[..|cs| - 1];
      var last := cs[|cs| - 1];
      assert cs == init + [last];
      SumCountsTotal(init, ks);
      SumCountsStep(init, last, ks);
      OccursOnce(ks, last.status);
    }
  }

  lemma {:induction false} SumCountsEmpty(ks: seq<string>)
    ensures SumCounts([], ks) == 0
  {
    if |ks| > 0 {
      SumCountsEmpty(ks[1..]);
    }
  }

  /** Summing the tally over keys it holds sums the per-status counts. */
  lemma {:induction false} SumOverTally(cs: seq<ConversationRecord>, ks: seq<string>)
    requires forall k :: k in ks ==> k in Tally(cs)
    ensures SumOver(Tally(cs), ks) == SumCounts(cs, ks)
  {
    if |ks| > 0 {
      SumOverTally(cs, ks[1..]);
    }
  }

  /** The tally's keys are exactly the distinct statuses, and its values add
      up to the number of conversations. */
  lemma StatusCountsSumToTotal(cs: seq<ConversationRecord>)
    ensures forall s :: s in Tally(cs) <==> s in Statuses(cs)
    ensures SumOver(Tally(cs), Statuses(cs)) == |cs|
  {
    var ks := Statuses(cs);
    forall i | 0 <= i < |cs| ensures cs[i].status in ks {
      assert cs[i] in cs;
    }
    SumOverTally(cs, ks);
    SumCountsTotal(cs, ks);
  }

  /** What the route promises of `statusCounts`: a key for exactly the
      statuses that occur, each holding that status's count, and values that
      add up to the number of conversations. */
  ghost predicate IsStatusTally(m: map<string, nat>, cs: seq<ConversationRecord>)
  {
    && (forall s :: s in m <==> exists c :: c in cs && c.status == s)
    && (forall s :: s in m ==> m[s] == CountStatus(cs, s))
    && (forall s :: s in m <==> s in Statuses(cs))
    && SumOver(m, Statuses(cs)) == |cs|
  }

  lemma TallyIsStatusTally(cs: seq<ConversationRecord>)
    ensures IsStatusTally(Tally(cs), cs)
  {
    StatusCountsSumToTotal(cs);
  }

  /** The route's answer. */
  datatype Stats = Stats(totalLeads: nat, leadsToday: nat, leadsThisMonth: nat,
                         last7Days: seq<DayCount>, statusCounts: map<string, nat>)

  datatype StatsResponse = StatsOk(stats: Stats) | StatsError(status: int, error: string)

  const StatsError500 := "Erro ao buscar estat\U{00ED}sticas"

  /** `GET`: `today` and `monthStart` are the start of the current day and
      month; `fails` says whether a query throws. */
  method Get(cs: seq<ConversationRecord>, today: int, monthStart: int, fails: bool) returns (r: StatsResponse)
    ensures fails ==> r == StatsError(500, StatsError500)
    ensures !fails ==> r.StatsOk?
    ensures !fails ==>
              && r.stats.totalLeads == |cs|
              && r.stats.leadsToday == CountSince(cs, today)
              && r.stats.leadsThisMonth == CountSince(cs, monthStart)
              && |r.stats.last7Days| == 7
              && (forall k :: 0 <= k < 7 ==> r.stats.last7Days[k].start == today - (6 - k) * DayMs)
              && (forall k :: 0 <= k < 7 ==>
                    r.stats.last7Days[k].count
                    == CountIn(cs, r.stats.last7Days[k].start, r.stats.last7Days[k].start + DayMs))
              && IsStatusTally(r.stats.statusCounts, cs)
  {
    if fails {
      return StatsError(500, StatsError500);
    }
    var days := Last7Days(cs, today);
    var tally := Tally(cs);
    TallyIsStatusTally(cs);
    r := StatsOk(Stats(|cs|, CountSince(cs, today), CountSince(cs, monthStart), days, tally));
  }

}

=== FILE: text.dfy ===
/** String functions of the JavaScript runtime that the core relies on, over
    `string` (a sequence of Unicode scalar values). */
module Text {

  /** The characters JavaScript's `\s` class matches, which are also exactly the
      characters `String.prototype.trim` strips (WhiteSpace and LineTerminator
      of ECMAScript, sections 12.2 and 12.3). */
  predicate IsWhitespace(c: char)
  {
    || c == ' ' || c == '\t' || c == '\n' || c == '\r'
    || c == '\U{000B}' || c == '\U{000C}' || c == '\U{00A0}' || c == '\U{1680}'
    || ('\U{2000}' <= c <= '\U{200A}')
    || c == '\U{2028}' || c == '\U{2029}' || c == '\U{202F}' || c == '\U{205F}'
    || c == '\U{3000}' || c == '\U{FEFF}'
  }

  /** JavaScript's `\d` without the unicode flag: an ASCII digit. */
  predicate IsDigit(c: char)
  {
    '0' <= c <= '9'
  }

  predicate AllDigits(s: string)
  {
    forall i :: 0 <= i < |s| ==> IsDigit(s[i])
  }

  /** Leading whitespace removed. */
  function TrimStart(s: string): (r: string)
    ensures |r| <= |s| && r == s[|s| - |r|..]
    ensures |r| > 0 ==> !IsWhitespace(r[0])
    ensures forall i :: 0 <= i < |s| - |r| ==> IsWhitespace(s[i])
  {
    if |s| == 0 || !IsWhitespace(s[0]) then s else TrimStart(s[1..])
  }

  /** Trailing whitespace removed. */
  function TrimEnd(s: string): (r: string)
    ensures |r| <= |s| && r == s[..|r|]
    ensures |r| > 0 ==> !IsWhitespace(r[|r| - 1])
    ensures forall i :: |r| <= i < |s| ==> IsWhitespace(s[i])
  {
    if |s| == 0 || !IsWhitespace(s[|s| - 1]) then s else TrimEnd(s[..|s| - 1])
  }

  /** `String.prototype.trim`. */
  function Trim(s: string): (r: string)
  {
    TrimEnd(TrimStart(s))
  }

  /** Character i of the trimmed text is a character of the original. */
  lemma TrimIndex(s: string, i: nat)
    requires i < |Trim(s)|
    ensures |s| - |TrimStart(s)| + i < |s| && Trim(s)[i] == s[|s| - |TrimStart(s)| + i]
  {
    var t := TrimStart(s);
    assert Trim(s)[i] == t[i];
  }

  /** Whatever survives the leading trim starts at a non-whitespace character of `s`. */
  lemma TrimStartKeepsNonWhitespace(s: string)
    ensures |TrimStart(s)| > 0 ==> !IsWhitespace(s[|s| - |TrimStart(s)|])
  {
    var t := TrimStart(s);
    if |t| > 0 {
      assert t[0] == s[|s| - |t|];
    }
  }

  lemma AllWhitespaceTrimsEmpty(s: string)
    requires forall i :: 0 <= i < |s| ==> IsWhitespace(s[i])
    ensures Trim(s) == ""
  {
    TrimStartKeepsNonWhitespace(s);
    assert |TrimStart(s)| == 0;
  }

  lemma NonWhitespaceSurvivesTrim(s: string, i: nat)
    requires i < |s| && !IsWhitespace(s[i])
    ensures Trim(s) != ""
  {
    var t := TrimStart(s);
    var j := i - (|s| - |t|);
    assert 0 <= j < |t| && t[j] == s[i];
    assert j < |TrimEnd(t)|;
  }

  /** Trimming yields the empty string exactly when every character is whitespace. */
  lemma TrimEmptyIffAllWhitespace(s: string)
    ensures Trim(s) == "" <==> forall i :: 0 <= i < |s| ==> IsWhitespace(s[i])
  {
    if forall i :: 0 <= i < |s| ==> IsWhitespace(s[i]) {
      AllWhitespaceTrimsEmpty(s);
    } else {
      var i :| 0 <= i < |s| && !IsWhitespace(s[i]);
      NonWhitespaceSurvivesTrim(s, i);
    }
  }

  /** `s.includes(sub)`. */
  predicate Contains(s: string, sub: string)
  {
    sub <= s || (|s| > 0 && Contains(s[1..], sub))
  }

  lemma ContainsEmpty(s: string)
    ensures Contains(s, "")
  {
  }

  /** `Contains` agrees with the positional definition of a substring. */
  lemma {:induction false} ContainsAt(s: string, sub: string)
    ensures Contains(s, sub) <==> exists i :: 0 <= i <= |s| - |sub| && sub == s[i..][..|sub|]
  {
    if sub <= s {
      assert sub == s[0..][..|sub|];
    } else if |s| == 0 {
    } else {
      ContainsAt(s[1..], sub);
      if Contains(s[1..], sub) {
        var i :| 0 <= i <= |s| - 1 - |sub| && sub == s[1..][i..][..|sub|];
        assert s[1..][i..] == s[i + 1..];
      }
      if exists i :: 0 <= i <= |s| - |sub| && sub == s[i..][..|sub|] {
        var i :| 0 <= i <= |s| - |sub| && sub == s[i..][..|sub|];
        assert i != 0;
        assert s[1..][i - 1..] == s[i..];
      }
    }
  }

  /** ASCII case mapping of one character. */
  function LowerChar(c: char): char
  {
    if 'A' <= c <= 'Z' then (c as int + 32) as char else c
  }

  function UpperChar(c: char): char
  {
    if 'a' <= c <= 'z' then (c as int - 32) as char else c
  }

  /** `s.toLowerCase()` on the ASCII letters. */
  function Lower(s: string): (r: string)
    ensures |r| == |s|
    ensures forall i :: 0 <= i < |s| ==> r[i] == LowerChar(s[i])
  {
    seq(|s|, i requires 0 <= i < |s| => LowerChar(s[i]))
  }

  /** `s.toUpperCase()` on the ASCII letters. */
  function Upper(s: string): (r: string)
    ensures |r| == |s|
    ensures forall i :: 0 <= i < |s| ==> r[i] == UpperChar(s[i])
  {
    seq(|s|, i requires 0 <= i < |s| => UpperChar(s[i]))
  }

  function DigitChar(d: nat): char
    requires d < 10
  {
    ('0' as int + d) as char
  }

  function DigitValue(c: char): nat
    requires IsDigit(c)
  {
    c as int - '0' as int
  }

  /** The decimal rendering of a natural number, as `${n}` produces it. */
  function NatToString(n: nat): (r: string)
    ensures |r| >= 1 && AllDigits(r)
    ensures n < 10 ==> |r| == 1
    ensures 10 <= n < 100 ==> |r| == 2
  {
    if n < 10 then [DigitChar(n)] else NatToString(n / 10) + [DigitChar(n % 10)]
  }

  /** The value of a string of decimal digits. */
  function DigitsValue(s: string): nat
    requires AllDigits(s)
  {
    if |s| == 0 then 0 else 10 * DigitsValue(s[..|s| - 1]) + DigitValue(s[|s| - 1])
  }

  /** Reading back a rendered number gives the number. */
  lemma {:induction false} NatToStringRoundTrip(n: nat)
    ensures DigitsValue(NatToString(n)) == n
  {
    if n >= 10 {
      var s := NatToString(n);
      assert s[..|s| - 1] == NatToString(n / 10);
      NatToStringRoundTrip(n / 10);
    }
  }

  /** Distinct numbers render as distinct strings. */
  lemma NatToStringInjective(m: nat, n: nat)
    requires NatToString(m) == NatToString(n)
    ensures m == n
  {
    NatToStringRoundTrip(m);
    NatToStringRoundTrip(n);
  }

  /** `s.padStart(width, c)`. */
  function PadStart(s: string, width: nat, c: char): (r: string)
    ensures |s| >= width ==> r == s
    ensures |s| < width ==> |r| == width && r[width - |s|..] == s
    ensures forall i :: 0 <= i < |r| - |s| ==> r[i] == c
  {
    if |s| >= width then s else seq(width - |s|, _ => c) + s
  }

  /** Leading zeros do not change the value of a digit string. */
  lemma {:induction false} LeadingZeroValue(s: string)
    requires AllDigits(s)
    ensures AllDigits("0" + s) && DigitsValue("0" + s) == DigitsValue(s)
  {
    var t := "0" + s;
    assert AllDigits(t) by {
      forall i | 0 <= i < |t| ensures IsDigit(t[i]) {
        if i > 0 { assert t[i] == s[i - 1]; }
      }
    }
    if |s| > 0 {
      assert t[..|t| - 1] == "0" + s[..|s| - 1];
      LeadingZeroValue(s[..|s| - 1]);
    }
  }
}

=== FILE: upload_api.dfy ===
/** The upload route: the missing-file check, the stored file name built from
    the clock, a random text and the original extension, and the public address. */
module UploadApi {
  import opened Wrappers
  import opened Text

  /** An uploaded file: its original name and size in bytes. */
  datatype File = File(name: string, size: nat)

  /** Where the file was written: the path segments under the working directory. */
  datatype StoredFile = StoredFile(path: seq<string>, size: nat)

  datatype Response =
    | Uploaded(url: string, fileName: string, fileSize: nat, kind: string)
    | UploadError(status: int, error: string)

  datatype Upload = Upload(response: Response, stored: Option<StoredFile>)

  const NoFileError := "Nenhum arquivo enviado"
  const UploadFailed := "Erro ao fazer upload do arquivo"

  /** `name.split('.').pop()`: what follows the last dot, or the whole name. */
  function Extension(name: string): (ext: string)
    ensures |ext| <= |name| && ext == name[|name| - |ext|..]
    ensures '.' !in ext
    ensures '.' in name ==> |ext| < |name| && name[|name| - |ext| - 1] == '.'
    ensures '.' !in name ==> ext == name
  {
    if |name| == 0 then ""
    else if name[|name| - 1] == '.' then ""
    else
      var ext := Extension(name[..|name| - 1]) + [name[|name| - 1]];
      assert name == name[..|name| - 1] + [name[|name| - 1]];
      ext
  }

  /** A name is its stem, a dot and its extension whenever it has a dot. */
  lemma ExtensionSplits(name: string)
    requires '.' in name
    ensures var ext := Extension(name);
            name == name[..|name| - |ext| - 1] + "." + ext
  {
    var ext := Extension(name);
    var k := |name| - |ext| - 1;
    assert name[k] == '.';
    assert name[k + 1..] == ext;
    assert name == name[..k] + [name[k]] + name[k + 1..];
  }

  /** Appending a dot and a dot-free text makes that text the extension. */
  lemma {:induction false} ExtensionOfSuffix(stem: string, ext: string)
    requires '.' !in ext
    ensures Extension(stem + "." + ext) == ext
  {
    if |ext| > 0 {
      var init := ext[..|ext| - 1];
      var last := ext[|ext| - 1];
      assert ext == init + [last];
      var n := stem + "." + ext;
      assert n == (stem + "." + init) + [last];
      assert n[|n| - 1] == last != '.';
      assert n[..|n| - 1] == stem + "." + init;
      ExtensionOfSuffix(stem, init);
    }
  }

  /** `${timestamp}-${randomStr}.${fileExtension}`. */
  function StoredName(timestamp: nat, random: string, original: string): (n: string)
    ensures NatToString(timestamp) + "-" <= n
    ensures |n| > |Extension(original)| && n[|n| - |Extension(original)| - 1..] == "." + Extension(original)
  {
    var head := NatToString(timestamp) + "-";
    var ext := Extension(original);
    JoinedEnds(head, random, ext);
    head + random + "." + ext
  }

  /** `head + middle + "." + ext` starts with `head` and ends with `"." + ext`. */
  lemma JoinedEnds(head: string, middle: string, ext: string)
    ensures head <= head + middle + "." + ext
    ensures var n := head + middle + "." + ext;
            n[|n| - |ext| - 1..] == "." + ext
  {
    var n := head + middle + "." + ext;
    assert n[..|head|] == head;
  }

  /** The stored name keeps the original's extension. */
  lemma StoredNameKeepsExtension(timestamp: nat, random: string, original: string)
    ensures Extension(StoredName(timestamp, random, original)) == Extension(original)
  {
    ExtensionOfSuffix(NatToString(timestamp) + "-" + random, Extension(original));
  }

  /** A dash right after a shorter text never lines up with a run of digits. */
  lemma DashMisaligned(a: string, x: string, b: string, y: string)
    ensures AllDigits(b) && |a| < |b| ==> a + "-" + x != b + "-" + y
  {
    if AllDigits(b) && |a| < |b| {
      assert (a + "-" + x)[|a|] == '-';
      assert (b + "-" + y)[|a|] == b[|a|];
    }
  }

  /** A run of digits ends at the first dash, so it is recovered from what follows. */
  lemma DigitsBeforeDash(a: string, x: string, b: string, y: string)
    requires AllDigits(a) && AllDigits(b)
    requires a + "-" + x == b + "-" + y
    ensures a == b
  {
    DashMisaligned(a, x, b, y);
    DashMisaligned(b, y, a, x);
    var s := a + "-" + x;
    assert a == s[..|a|];
    assert b == s[..|b|];
  }

  /** The stored name is the clock's digits, a dash, and the rest. */
  lemma StoredNameShape(timestamp: nat, random: string, original: string)
    ensures StoredName(timestamp, random, original)
            == NatToString(timestamp) + "-" + (random + "." + Extension(original))
  {
    RegroupTail(NatToString(timestamp) + "-", random, ".", Extension(original));
  }

  /** Regrouping a four-part concatenation around its first part. */
  lemma RegroupTail(a: string, b: string, c: string, d: string)
    ensures a + b + c + d == a + (b + c + d)
  {
  }

  /** Stored names made at different clock readings always differ. */
  lemma StoredNamesDifferByClock(t1: nat, t2: nat, random1: string, random2: string, n1: string, n2: string)
    requires t1 != t2
    ensures StoredName(t1, random1, n1) != StoredName(t2, random2, n2)
  {
    var a := NatToString(t1);
    var b := NatToString(t2);
    var x := random1 + "." + Extension(n1);
    var y := random2 + "." + Extension(n2);
    StoredNameShape(t1, random1, n1);
    StoredNameShape(t2, random2, n2);
    if a + "-" + x == b + "-" + y {
      DigitsBeforeDash(a, x, b, y);
      NatToStringInjective(t1, t2);
    }
  }

  function PublicUrl(kind: string, storedName: string): string
  {
    "/uploads/" + kind + "/" + storedName
  }

  function FilePath(kind: string, storedName: string): seq<string>
  {
    ["public", "uploads", kind, storedName]
  }

  /** `POST`. `kind` is the form's `type` field (absent makes the path join
      throw); `timestamp` and `random` are the clock and the random text;
      `writeFails` says whether writing the file throws. */
  function Post(file: Option<File>, kind: Option<string>, timestamp: nat, random: string, writeFails: bool): (u: Upload)
    ensures file.None? ==> u == Upload(UploadError(400, NoFileError), None)
    ensures file.Some? && (kind.None? || writeFails) ==> u == Upload(UploadError(500, UploadFailed), None)
    ensures u.stored.Some? <==> u.response.Uploaded?
    ensures u.response.Uploaded? <==> file.Some? && kind.Some? && !writeFails
    ensures u.response.Uploaded? ==>
              var name := StoredName(timestamp, random, file.value.name);
              && u.response.url == PublicUrl(kind.value, name)
              && u.stored.value.path == FilePath(kind.value, name)
              && u.response.fileName == file.value.name
              && u.response.fileSize == file.value.size == u.stored.value.size
              && u.response.kind == kind.value
  {
    if file.None? then Upload(UploadError(400, NoFileError), None)
    else if kind.None? || writeFails then Upload(UploadError(500, UploadFailed), None)
    else
      var name := StoredName(timestamp, random, file.value.name);
      Upload(Uploaded(PublicUrl(kind.value, name), file.value.name, file.value.size, kind.value),
             Some(StoredFile(FilePath(kind.value, name), file.value.size)))
  }

  /** The public address names the same directory and file as the written path. */
  lemma UrlMatchesPath(kind: string, storedName: string)
    ensures var p := FilePath(kind, storedName);
            PublicUrl(kind, storedName) == "/" + p[1] + "/" + p[2] + "/" + p[3]
  {
  }
}

=== FILE: welcome_modal.dfy ===
/** The customer's start form: the emptiness check, the phone format check and
    the loading flag around the start callback. */
module WelcomeModal {
  import opened Text

  /** One character the phone pattern `^[\d\s\(\)\-\+]+$` admits. */
  predicate IsPhoneChar(c: char)
  {
    IsDigit(c) || IsWhitespace(c) || c == '(' || c == ')' || c == '-' || c == '+'
  }

  /** The phone pattern, tested on the raw (untrimmed) input. */
  predicate PhonePattern(phone: string)
  {
    |phone| > 0 && forall i :: 0 <= i < |phone| ==> IsPhoneChar(phone[i])
  }

  /** What submitting the form does, in order. */
  datatype Effect =
    | Alert(text: string)
    | SetLoading(on: bool)
    | CallStart(name: string, phone: string)

  const FillAllFields := "Por favor, preencha todos os campos"
  const InvalidPhone := "Por favor, insira um n\U{00FA}mero de telefone v\U{00E1}lido"
  const StartFailed := "Erro ao iniciar conversa"

  predicate Blank(s: string)
  {
    Trim(s) == ""
  }

  predicate Starts(effects: seq<Effect>)
  {
    exists i :: 0 <= i < |effects| && effects[i].CallStart?
  }

  /** The effects once both checks pass: loading on, the callback with the
      trimmed fields, the failure alert if it throws, loading off. */
  function StartEffects(name: string, phone: string, startThrows: bool): (effects: seq<Effect>)
    ensures |effects| >= 3 && effects[0] == SetLoading(true) && effects[|effects| - 1] == SetLoading(false)
    ensures effects[1] == CallStart(name, phone)
    ensures forall i :: 0 <= i < |effects| && i != 1 ==> !effects[i].CallStart?
    ensures Alert(StartFailed) in effects <==> startThrows
  {
    var effects := [SetLoading(true), CallStart(name, phone)]
                   + (if startThrows then [Alert(StartFailed)] else [])
                   + [SetLoading(false)];
    assert startThrows ==> effects[2] == Alert(StartFailed);
    effects
  }

  /** The checks in order, given whether a field is blank and whether the
      phone matches: the first failing check alerts, otherwise the start runs
      with the given (trimmed) fields. */
  function Checked(blank: bool, phoneOk: bool, name: string, phone: string, startThrows: bool): (effects: seq<Effect>)
    ensures Starts(effects) <==> !blank && phoneOk
    ensures blank ==> effects == [Alert(FillAllFields)]
    ensures !blank && !phoneOk ==> effects == [Alert(InvalidPhone)]
    ensures forall i :: 0 <= i < |effects| && effects[i].CallStart? ==> effects[i] == CallStart(name, phone)
    ensures Starts(effects) ==>
              |effects| >= 3 && effects[0] == SetLoading(true) && effects[|effects| - 1] == SetLoading(false)
              && (Alert(StartFailed) in effects <==> startThrows)
  {
    if blank then [Alert(FillAllFields)]
    else if !phoneOk then [Alert(InvalidPhone)]
    else
      var effects := StartEffects(name, phone, startThrows);
      assert effects[1].CallStart?;
      effects
  }

  /** `handleSubmit`; `startThrows` says whether the start callback throws. */
  function Submit(name: string, phone: string, startThrows: bool): (effects: seq<Effect>)
    ensures Starts(effects) <==> !Blank(name) && !Blank(phone) && PhonePattern(phone)
    ensures Blank(name) || Blank(phone) ==> effects == [Alert(FillAllFields)]
    ensures !Blank(name) && !Blank(phone) && !PhonePattern(phone) ==> effects == [Alert(InvalidPhone)]
    ensures forall i :: 0 <= i < |effects| && effects[i].CallStart? ==>
              effects[i] == CallStart(Trim(name), Trim(phone))
    ensures Starts(effects) ==>
              |effects| >= 3 && effects[0] == SetLoading(true) && effects[|effects| - 1] == SetLoading(false)
              && (Alert(StartFailed) in effects <==> startThrows)
  {
    Checked(Blank(name) || Blank(phone), PhonePattern(phone), Trim(name), Trim(phone), startThrows)
  }

  /** Input made only of whitespace is reported as missing, never as a bad phone,
      although every whitespace character matches the phone pattern. */
  lemma BlankPhoneIsNotAFormatError(name: string, phone: string, startThrows: bool)
    requires |phone| > 0 && forall i :: 0 <= i < |phone| ==> IsWhitespace(phone[i])
    ensures PhonePattern(phone)
    ensures Submit(name, phone, startThrows) == [Alert(FillAllFields)]
  {
    TrimEmptyIffAllWhitespace(phone);
  }

  /** A phone the pattern admits stays admissible after trimming, unless it
      was blank: the callback never receives characters the pattern refuses. */
  lemma TrimmedPhoneMatches(phone: string)
    requires PhonePattern(phone)
    ensures Blank(phone) || PhonePattern(Trim(phone))
  {
    if !Blank(phone) {
      var r := Trim(phone);
      forall i | 0 <= i < |r| ensures IsPhoneChar(r[i]) {
        TrimIndex(phone, i);
      }
    }
  }
}

=== FILE: wire.dfy ===
/** The records and events that travel between the chat relay, the customer's
    chat screen and the attendant panel. */
module Wire {
  import opened Wrappers

  /** The identity of one live socket connection. */
  type ConnId = string

  /** A chat message as the relay broadcasts it and the chat screen lists it.
      `kind` is the source's `type` field ('text', 'image', 'video', 'audio');
      `createdAt` is an instant in integer milliseconds. */
  datatype Message = Message(
    id: string,
    content: string,
    kind: string,
    fileUrl: Option<string>,
    fileName: Option<string>,
    fileSize: Option<int>,
    sender: string,
    createdAt: int)

  /** A conversation as the attendant panel lists it. */
  datatype Summary = Summary(
    id: string,
    clientName: string,
    clientPhone: string,
    status: string,
    lastMessage: Option<string>,
    lastMessageTime: Option<int>,
    unreadCount: Option<int>)

  /** Events a browser sends to the relay. */
  datatype ClientEvent =
    | RejoinConversation(conversationId: string)
    | JoinConversation(conversationId: string)
    | LeaveConversation(conversationId: string)
    | Typing(conversationId: string)
    | StopTyping(conversationId: string)
    | Disconnect

  /** Events the relay (or an API route through it) pushes to browsers. */
  datatype ServerEvent =
    | NewConversation(conversation: Summary)
    | ConversationUpdated(id: string, lastMessage: string, lastMessageTime: int)
    | MessagePushed(message: Message)
    | TypingChanged(isTyping: bool)

  /** One `emit` into a room: `io.to(room).emit(...)` has no exception,
      `socket.to(room).emit(...)` excludes the sending connection. */
  datatype Emission = Emission(room: string, except: Option<ConnId>, event: ServerEvent)

  const ConversationPrefix := "conversation:"
  const AttendantPrefix := "attendant:"
  /** The shared room every attendant connection joins. */
  const AttendantsRoom := "attendants"

  function ConversationRoom(conversationId: string): string
  {
    ConversationPrefix + conversationId
  }

  function AttendantRoom(attendantId: string): string
  {
    AttendantPrefix + attendantId
  }

  predicate IsConversationRoom(room: string)
  {
    ConversationPrefix <= room
  }

  predicate IsAttendantRoom(room: string)
  {
    AttendantPrefix <= room
  }

  /** The three room families never share a name, and each family names
      one conversation or attendant per room. */
  lemma RoomNamesDistinct(a: string, b: string)
    ensures ConversationRoom(a) == ConversationRoom(b) <==> a == b
    ensures AttendantRoom(a) == AttendantRoom(b) <==> a == b
    ensures ConversationRoom(a) != AttendantRoom(b)
    ensures ConversationRoom(a) != AttendantsRoom
    ensures AttendantRoom(a) != AttendantsRoom
    ensures IsConversationRoom(ConversationRoom(a)) && !IsConversationRoom(AttendantsRoom)
    ensures !IsConversationRoom(AttendantRoom(a))
  {
    if ConversationRoom(a) == ConversationRoom(b) {
      assert a == ConversationRoom(a)[|ConversationPrefix|..];
    }
    if AttendantRoom(a) == AttendantRoom(b) {
      assert a == AttendantRoom(a)[|AttendantPrefix|..];
    }
    assert ConversationRoom(a)[0] == 'c' && AttendantRoom(b)[0] == 'a';
    assert AttendantRoom(a)[9] == ':' && AttendantsRoom[9] == 's';
    assert AttendantRoom(a)[0] != 'c';
  }
}

=== FILE: wrappers.dfy ===
/** The optional-value type used across the model: a JavaScript value that may be
    `undefined` or `null` is `None`; a present one is `Some`. */
module Wrappers {

  datatype Option<+T> = None | Some(value: T) {

    /** Returns the value encapsulated in Some or a default value if None */
    function GetOr(default: T): T {
      match this
      case Some(v) => v
      case None => default
    }
  }

  /** JavaScript truthiness of an optional string: present and not empty. */
  predicate Truthy(o: Option<string>) {
    o.Some? && o.value != ""
  }

  /** `x || null` on an optional string: a falsy value becomes absent. */
  function OrNull(o: Option<string>): (r: Option<string>)
    ensures r.Some? <==> Truthy(o)
    ensures r.Some? ==> r == o
  {
    if Truthy(o) then o else None
  }

  /** `n || null` on an optional number: zero becomes absent. */
  function NonZeroOrNull(o: Option<int>): (r: Option<int>)
    ensures r.Some? <==> o.Some? && o.value != 0
    ensures r.Some? ==> r == o
  {
    if o.Some? && o.value != 0 then o else None
  }
}
